=== FILE: README.md ===
# BookNGo backend: bookings, listings and gates

This project is a Dafny model of the core of the BookNGo event-booking
backend. It covers:

- the seat ledger kept by `createBooking` and `cancelBooking`;
- the list queries behind the admin booking listing, the per-user booking
  listing, the public event listing and the category listing;
- the request validation of the event handlers: listing, lookup by id,
  update, soft delete, creation and the dashboard counts;
- the duplicate check and reply projection of the event-creation service;
- the `isUser` and `isAdmin` role gates and the routes they guard.

The database is a value of type `Store.Store`. It holds maps for the
events, bookings and categories tables and the two serial counters that
number new rows. Every handler is a pure function from a store and a
request to a reply (a status and an optional body), plus the store it
leaves behind.

A list query is modelled as a query plan: `WHERE` conditions that name
numbered `$n` placeholders, a sort key, a direction and the bound
parameter list. The meaning PostgreSQL gives a plan is defined next to it:

- `LIKE` and `ILIKE` patterns;
- `LIMIT` and `OFFSET`, which the database rejects when they are negative,
  not numbers, or beyond the `bigint` range;
- the separate count query.

Each listing is then proved to return two things. The first is the
requested page of exactly the rows a reference selection predicate keeps.
The second is the count its count query makes. For a search term without
`%`, `_` or `\`, that selection is shown to be a case-insensitive
substring or prefix test.

JavaScript behaviour is written out explicitly:

- falsy `""` and `0` stand for a missing field;
- `parseInt` can produce NaN (`JsInt = Option<int>`);
- a destructuring default differs from `|| default`;
- NaN passes every `< 1` test.

The model follows the code as written:

- cancellation never gives seats back;
- a booking can be cancelled again and again;
- `updateAvailableSeats` writes an absolute number;
- `updateEventById` stores whatever seat numbers it is sent.

The seat ledger is stated as an invariant over the store. For every
event, the seats left plus the tickets of all its bookings, cancelled ones
included, equal the capacity. Every handler that writes seats or bookings
except `updateEventById` preserves it; `updateEventById` stores whatever
seat numbers it is sent and can break it. The one defect (negative ticket
counts, see Findings) is shown by a concrete store. The checked variant of
the booking handler keeps the stronger invariant
`0 <= available_seats <= capacity` over any run of requests to every
writing handler except `updateEventById`.

Modules (one per file):

- `Common`: options, statuses, `parseInt` and page arithmetic, `Slice`, `Filter`;
- `SqlLike`: pattern matching;
- `Store`: the tables;
- `EventModel` and `BookingModel`: the database access functions;
- `RoleVerify`: the gates;
- `EventService`: event creation below the handler;
- `BookingController` and `EventController`: the handlers;
- `Routes`: gates in front of handlers;
- `Ledger`: the seat invariant.

## Model

| member | source | states |
|---|---|---|
| Common.ParseWithDefault | src/controllers/eventController.js:22-32 | a parameter left out takes the default, a numeric one its value, and only unparsable text gives NaN |
| Common.ParseOrDefault | src/controllers/bookingController.js:131-132 | `parseInt(x) \|\| d` keeps a non-zero number and turns NaN, 0 and a missing value into the default |
| Common.PageOffset | src/models/booking.js:101 | the offset `(page - 1) * limit` is a number exactly when both inputs are, NaN otherwise |
| Common.CeilDiv | src/controllers/bookingController.js:110 | the page count is the least number of `limit`-sized pages that holds `total` rows, and 0 for no rows |
| Common.Slice | src/models/booking.js:101-105 | a `LIMIT`/`OFFSET` page holds at most `limit` rows; it is empty from the end on; otherwise it is the rows from `offset`, in order |
| Common.NormalizeOrder | src/models/booking.js:97 | the sort is ascending exactly when the upper-cased argument is `ASC` (so also for `aſc`, whose long s upper-cases to `S`), descending for anything else |
| Common.AscIsCaseInsensitive | src/models/booking.js:97 | the ascending sort is chosen for exactly the three-letter arguments a, s or `ſ`, c in any mix of cases |
| Common.Paginate | src/models/booking.js:101-106 | the database answers only when limit and offset are both integers between 0 and the largest `bigint`, and then with that page |
| Common.Filter | src/models/booking.js:90-92 | a `WHERE` clause keeps only rows that satisfy it and every row that does, never more rows than the table |
| Common.FilterCounts | src/models/booking.js:90-92 | a `WHERE` clause keeps each row as often as the table holds it when the row satisfies it, and never otherwise, so the result is a sub-multiset of the table |
| Common.FilterConcat | src/models/eventModel.js:28-32 | filtering two tables laid end to end gives the two filtered tables laid end to end, so the kept rows stay in table order |
| Common.FilterAgrees | src/models/eventModel.js:28-49 | two conditions that agree on every row keep the same rows (this is why the page and count queries agree) |
| Common.FilterNarrower | src/models/booking.js:176-178 | a stronger condition never keeps more rows than a weaker one |
| Common.EmptyPageIsPastLastPage | src/controllers/eventController.js:51-53 | page and limit of at least 1 are accepted exactly while limit and offset fit a `bigint`, and then a page is empty exactly when its number is past `ceil(total / limit)` |
| SqlLike.PercentMatchesAll | src/models/eventModel.js:28-32 | a lone `%` pattern matches every text |
| SqlLike.LiteralHead | src/models/eventModel.js:237 | a pattern that starts with a literal matches exactly the texts that start with that literal and whose rest matches the remainder |
| SqlLike.PrefixPattern | src/models/eventModel.js:237 | `text LIKE 'term%'` is a prefix test for a term with no metacharacter |
| SqlLike.SubstringPattern | src/models/booking.js:85 | `text LIKE '%term%'` holds exactly when the term occurs in the text |
| SqlLike.ILikeSubstring | src/models/eventModel.js:12-15 | a case-insensitive `%term%` match is a substring test on the lower-cased strings |
| SqlLike.ILikePrefix | src/models/eventModel.js:245 | a case-insensitive `term%` match is a prefix test on the lower-cased strings |
| EventModel.EventsValues | src/models/eventModel.js:9-18 | the six parameters: `%term%` for each given filter and `NULL` for an empty one, the date text or `NULL` for a blank date, then limit and offset |
| EventModel.EventsWhereIsSelection | src/models/eventModel.js:28-49 | the page query's and the count query's `WHERE` clauses accept exactly the selected rows (active, each given filter matched, the event falling on the given day under the `::date` cast) |
| EventModel.WhereRowsAreKept | src/models/eventModel.js:36-49 | the page query and the count query, run over the whole table, keep exactly the selected rows in table order |
| EventModel.SelectedMeansSubstrings | src/models/eventModel.js:29-32 | for terms with no metacharacter, the selection is: active, and each given term a case-insensitive substring of its column |
| EventModel.FetchEvents | src/models/eventModel.js:4-60 | an answer exactly when the page arguments are accepted and a given date casts to a day (the cast fails otherwise); the page of the selected rows; the number of all selected rows; only active events |
| EventModel.FetchEventById | src/models/eventModel.js:63-96 | a row exactly for an active event whose category exists, joined with that category's name |
| EventModel.UpdateEventsById | src/models/eventModel.js:99-138 | for an existing id, active or not, the ten columns and `updated_at` are overwritten and every other column and row is kept; an unknown id changes nothing |
| EventModel.DeleteEventById | src/models/eventModel.js:142-158 | a soft delete clears `is_active` and stamps `updated_at`; no row is removed; an unknown id changes nothing |
| EventModel.InsertEvent | src/models/eventModel.js:168-211 | a row exactly when `state_id` and `city_id` are numbers and the date column reads the date text; otherwise nothing changes; the new row is active, under the next serial id, every column from the record, `created_by` in both audit columns |
| EventModel.ActivePlusCancelledIsAll | src/models/eventModel.js:213-229 | the active count plus the cancelled count is the total event count |
| EventModel.DeleteMovesToCancelled | src/models/eventModel.js:142-158 | soft-deleting an active event moves it from the active to the cancelled count and keeps the total |
| EventModel.FetchCategories | src/models/eventModel.js:231-268 | an answer exactly when the page arguments are accepted; the page of categories whose name starts with the given text, ignoring case; their total |
| EventModel.CategoryFilterIsPrefix | src/models/eventModel.js:237-245 | for a name with no metacharacter, the category filter is a case-insensitive prefix test |
| BookingModel.InsertBooking | src/models/booking.js:3-21 | a new booking under the next serial id, every column from the record and the clock |
| BookingModel.UpdateAvailableSeats | src/models/booking.js:23-37 | the given number replaces the event's seat count, active event or not; an unknown event changes nothing |
| BookingModel.FetchBookingId | src/models/booking.js:184-189 | the booking with that id, if there is one |
| BookingModel.UpdateBookingStatus | src/models/booking.js:191-200 | the status becomes `cancelled` whatever it was before, and no event row is touched |
| BookingModel.Run | src/models/booking.js:101-121 | a plan answers when its limit and offset placeholders are bound and accepted; the page of the rows its conditions keep; the count of its count query's rows |
| BookingModel.AllBookingsPlan | src/models/booking.js:68-103 | placeholders numbered from `$1`: status first, then the `%search%` term, then limit and offset; the count query reuses the conditions without the last two values; the sort key is whitelisted with default `booking_date` |
| BookingModel.AllBookingsPlanSelects | src/models/booking.js:73-118 | the page query and the count query of the admin listing both accept exactly the rows with the given status that match the search on name, email, title or location |
| BookingModel.AllBookingsSearchIsSubstring | src/models/booking.js:79-88 | for a term with no metacharacter, the admin search is a case-insensitive substring test on four columns |
| BookingModel.AllBookingsPlanRows | src/models/booking.js:90-118 | both of the admin plan's queries keep the selected rows |
| BookingModel.AllBookingsRunSelects | src/models/booking.js:101-121 | running the admin plan answers exactly for accepted page arguments, with the selected rows' page and their count |
| BookingModel.FetchAllBookings | src/models/booking.js:51-122 | the requested page of the selected bookings and the number of all selected bookings, or a failure for rejected page arguments |
| BookingModel.UserBookingsPlan | src/models/booking.js:137-171 | `$1` is the user, then the lower-cased `%search%` term, then the status filter, then limit and offset; the count query has only the user condition |
| BookingModel.UserBookingsPlanSelects | src/models/booking.js:144-177 | the page query accepts exactly the user's rows that match the search and status; the count query accepts every row of the user |
| BookingModel.UserBookingsRunSelects | src/models/booking.js:170-180 | running the user plan answers exactly for limit and offset that are non-negative and within `bigint`, with the selected rows' page and the count of all the user's rows |
| BookingModel.SelectedAmongUserRows | src/models/booking.js:176-178 | the total reported counts at least the rows the filters keep |
| BookingModel.FetchBookingsByUser | src/models/booking.js:126-181 | the page of the user's selected bookings; a total that counts all of the user's bookings, whatever the search and status filters |
| BookingModel.UserBookingsSearchIsSubstring | src/models/booking.js:151-155 | for a term with no metacharacter, the user search is a case-insensitive substring test on title or location |
| RoleVerify.IsUser | src/middlewares/roleVerify.js:1-6 | the request is passed on exactly for the role `user`; otherwise the answer is 403 |
| RoleVerify.IsAdmin | src/middlewares/roleVerify.js:8-13 | the request is passed on exactly for the role `admin`; otherwise the answer is 403 |
| RoleVerify.NoRolePassesBoth | src/middlewares/roleVerify.js:1-13 | no caller gets through both gates |
| EventService.DtoOmitsUnlistedFields | src/services/eventService.js:12-27 | the reply does not depend on `state_id`, `city_id`, `updated_by` or `is_active` |
| EventService.DtoKeepsListedFields | src/services/eventService.js:12-27 | two rows with the same reply agree on every other column |
| EventService.CreateEventService | src/services/eventService.js:3-29 | a 500 and no insert when the duplicate check (`getEventByTitleAndDate`, EventModel.HasEventWithTitleAndDate) cannot read the date; a 409 and no insert exactly when an event, active or soft-deleted, has this title on that day; a 500 and no insert when a NaN id makes the insert fail; otherwise one new active event holding the record, its projection, every other row kept |
| EventService.SoftDeletedEventStillConflicts | src/services/eventService.js:4-7 | a soft-deleted event still blocks a new event with the same title and date, and a date the column cannot read is a 500 instead |
| BookingController.UserSortOrder | src/controllers/bookingController.js:136 | the sort is descending only for the exact word `desc` |
| BookingController.CreateBooking | src/controllers/bookingController.js:6-55 | 400 exactly for a falsy field; 404 exactly when the lookup finds no active event whose category exists; 500 exactly when fewer seats are left than requested; otherwise 201, one booking priced `price * num_tickets` and the seat count lowered by the tickets; the store changes only on 201 |
| BookingController.BookingConsumesSeats | src/controllers/bookingController.js:23-45 | a successful booking of a positive number of tickets strictly lowers the seats left and leaves them non-negative |
| BookingController.CancelBooking | src/controllers/bookingController.js:186-215 | 400 exactly for an unknown booking; 403 exactly for a caller who neither owns it nor is an admin; otherwise 200, the status `cancelled`, and the seats untouched |
| BookingController.CancelIsRepeatable | src/controllers/bookingController.js:192-203 | cancelling a cancelled booking succeeds again and still gives no seats back |
| BookingController.AllBookingsQueryOf | src/controllers/bookingController.js:64-80 | page and limit default to 1 and 10; sort key and direction default to `booking_date` and descending, and a given one is passed on; search and status are passed on unchanged |
| BookingController.GetAllBookings | src/controllers/bookingController.js:57-120 | 403 exactly for a non-admin; 500 exactly for page arguments the database rejects (NaN, negative, or beyond `bigint`); 404 exactly for an empty page; otherwise the page of matching bookings, their total and `ceil(total / limit)` pages |
| BookingController.UserBookingsQueryOf | src/controllers/bookingController.js:131-138 | falsy page and limit become 1 and 6; the offset is `(page - 1) * limit`; descending only for `desc`; a given sort key is passed on and a missing one becomes `booking_date`; search and status filter are passed on |
| BookingController.GetUserBookings | src/controllers/bookingController.js:122-184 | 403 exactly unless the path's id is the caller's own; 500 exactly for a limit or offset that is negative or beyond `bigint`; 404 exactly for an empty page; otherwise a page of only the caller's bookings, with a page count of all their bookings whatever the filters |
| EventController.GetAllEvents | src/controllers/eventController.js:18-66 | 400 exactly for a page or limit below 1; 500 exactly when an unparsable one slips past that test, the offset or limit exceeds `bigint`, or the date does not cast; 404 exactly for an empty page; otherwise the page of matching active events and their total |
| EventController.EventsNotFoundPastLastPage | src/controllers/eventController.js:51-53 | a valid listing request within the `bigint` range is a 404 exactly when its page is past `ceil(total / limit)`, and a 200 otherwise; outside the range it is a 500 |
| EventController.DigitsAreNotUuid | src/controllers/eventController.js:73-77 | no id matches both the all-digits pattern and the UUID pattern |
| EventController.NumeralRoundTrip | src/controllers/eventController.js:73 | every event id has a numeral the digits pattern accepts, and it reads back as that id |
| EventController.GetEventById | src/controllers/eventController.js:68-114 | 400 exactly for an id that is neither digits nor UUID-shaped; 500 for a UUID, which the integer key cannot read; 404 or 200 for a numeral, depending on whether the lookup finds the event |
| EventController.MalformedIdIgnoresStore | src/controllers/eventController.js:79-81 | a malformed id is a 400 whatever the store holds |
| EventController.ActiveEventIsFound | src/controllers/eventController.js:83-109 | an active event with an existing category is found under its numeral |
| EventController.UpdateEventById | src/controllers/eventController.js:117-178 | 400 exactly for a missing field; otherwise 500 exactly for a path id that is not an integer; 404 exactly for an id with no event; otherwise the stored event, active or not, is the old row with each of the ten body fields written and `updated_at` stamped, and that row is the reply; the store changes only on 200 |
| EventController.UpdateAcceptsInconsistentSeats | src/controllers/eventController.js:136-152 | an update may store more seats available than the capacity |
| EventController.DeleteEvent | src/controllers/eventController.js:181-198 | 500 exactly for a path id that is not an integer; 404 exactly for an id with no event; otherwise a soft delete of that event alone, with bookings untouched |
| EventController.DeleteIsRepeatable | src/controllers/eventController.js:185-193 | deleting twice succeeds twice, and the deleted event is no longer found by the lookup |
| EventController.CreateEvent | src/controllers/eventController.js:200-280 | 403 exactly for a non-admin; 400 exactly for missing or invalid fields (a numeric text counts as its number, and is truthy even as `"0"`); 409 exactly for an existing title on that day; 500 exactly when the date column cannot read the date, or `state_id` or `city_id` reads as NaN; otherwise 201 and one new active event holding every body field, all seats available, created and updated by the caller at `now` |
| EventController.FreeEventRejected | src/controllers/eventController.js:225-238 | a numeric price of 0 is rejected as a missing field |
| EventController.ZeroPriceTextAccepted | src/controllers/eventController.js:236-245 | a price sent as the text `"0"` passes both tests, is answered as a positive price would be, and creates an event priced 0 |
| EventController.RepeatedCreateConflicts | src/controllers/eventController.js:270-276 | sending the same successful creation again gives 409 and changes nothing |
| EventController.GetEventStats | src/controllers/eventController.js:282-301 | the active and cancelled counts (EventModel.CountActiveEvents, EventModel.CountCancelledEvents) add up to the total event count (EventModel.CountAllEvents); the booking count (BookingModel.CountAllBookings) is the number of bookings |
| EventController.GetAllCategories | src/controllers/eventController.js:303-338 | 400 exactly for a page or limit below 1; 500 exactly for an unparsable one or one beyond `bigint`; 404 exactly for an empty page; otherwise the page of matching categories and their total |
| EventController.CategoriesDefaultPage | src/controllers/eventController.js:307-326 | without query parameters, the first fifty matching categories are shown, or a 404 when none match |
| Routes.Guarded | src/middlewares/roleVerify.js:1-13 | a refusing gate answers with its status and leaves the store alone; a passing gate answers as the handler does |
| Routes.GuardedRead | src/middlewares/roleVerify.js:1-13 | the same for a handler that only reads |
| Routes.PostBooking | src/routes/bookingRoutes.js:49 | booking creation is 403 for every role but `user`, and is the handler otherwise |
| Routes.AllBookings | src/routes/bookingRoutes.js:65 | the admin listing is 403 for every role but `admin` |
| Routes.IndBookings | src/routes/bookingRoutes.js:88 | the user listing is 403 for every role but `user` |
| Routes.DelBookings | src/routes/bookingRoutes.js:111 | cancellation is 403 for every role but `user` |
| Routes.PostCreateEvent | src/routes/eventRoutes.js:181 | event creation is 403 for every role but `admin` |
| Routes.CancelOnlyByOwner | src/controllers/bookingController.js:196-198 | behind the user gate, a cancellation succeeds only for the booking's own user, so the handler's admin override cannot be reached |
| Routes.AdminCannotCancel | src/routes/bookingRoutes.js:111 | an admin's cancellation is always 403 and changes nothing |
| Routes.AdminCannotListOwnBookings | src/routes/bookingRoutes.js:88 | an admin cannot reach the user listing, even for their own id |
| Routes.AdminChecksAreRedundant | src/controllers/bookingController.js:59-61 | behind the admin gate, the handlers answer exactly as the bare handlers do |
| Routes.BookingInAnotherUsersName | src/controllers/bookingController.js:8-43 | a user can book under another user's id, because the owner comes from the request body |
| Ledger.SeatsNeverExceedCapacity | src/controllers/bookingController.js:23-45 | in a balanced store with positive bookings, no event shows more seats left than its capacity |
| Ledger.CreateBookingBalances | src/controllers/bookingController.js:34-45 | the booking handler as written keeps seats left plus booked tickets equal to the capacity, for every event |
| Ledger.CancelBookingBalances | src/models/booking.js:191-200 | cancellation keeps the books balanced because the cancelled tickets stay counted and no seat count changes |
| Ledger.CreateEventBalances | src/controllers/eventController.js:253-268 | a new event starts with every seat available and no booking, so the books stay balanced |
| Ledger.DeleteEventBalances | src/models/eventModel.js:142-158 | a soft delete keeps the books balanced |
| Ledger.NegativeTicketsOverfill | src/controllers/bookingController.js:11-25 | a concrete sound store where booking -5 tickets is accepted and leaves 15 seats on a 10-seat event |
| Ledger.CreateBookingChecked | src/controllers/bookingController.js:11-15 | a ticket count below one is a 400 that changes nothing; any other request is handled as written |
| Ledger.CreateBookingCheckedSound | src/controllers/bookingController.js:6-55 | the checked booking keeps the ledger balanced, every booking positive and `0 <= available_seats <= capacity` |
| Ledger.CancelBookingSound | src/controllers/bookingController.js:186-215 | cancellation keeps the ledger sound |
| Ledger.CreateEventSound | src/controllers/eventController.js:200-280 | event creation keeps the ledger sound |
| Ledger.DeleteEventSound | src/controllers/eventController.js:181-198 | a soft delete keeps the ledger sound |
| Ledger.ApplySound | src/routes/bookingRoutes.js:49-111 | any one booking, cancellation, event creation or deletion (the booking routes and the event routes for deletion and creation) keeps the ledger sound |
| Ledger.RunAllSound | src/routes/eventRoutes.js:135-181 | no run of requests to the booking routes and to the event deletion and creation routes ever oversells or overfills an event |
| Ledger.UpdateCanUnbalance | src/models/eventModel.js:99-138 | an update whose seat numbers do not add up to the capacity breaks the ledger |

## Left out

- The token check (`verifyToken`) is not part of this model. The caller's id and role are inputs, and so is the id it leaves on `req.user_id`.
- Sign-up, login, the user model, the Sequelize event definition, database configuration, Swagger and the server start-up are not part of this model.
- Concurrency is left out: each request is one atomic step. The read-then-write race between the seat check and the seat update in `createBooking` is therefore not modelled.
- The clock is a `now` parameter. `Date.parse` is the parameter `parsesAsDate`.
- `ORDER BY` is not executed. Each listing takes its rows already in the order the query's sort yields. The plans record the whitelisted sort key and the direction.
- Logging and the reply message texts are left out. The reshaping of listing rows into reply objects is also left out, including the misspelled keys in the user listing.
- The database's reading of a text as a value of the `event_date` column is the parameter `dateOf`, which gives the day the text names or nothing when it cannot read it. The event listing's `$3::date` cast, the duplicate check of event creation (`event_date = $2`, where `$2` takes the column's type) and the insert all go through it. Which texts it reads is not modelled.
- A `NULL` column never matches an `ILIKE`; columns other than the category name are never `NULL`.
- The `!id` test of `updateEventById` is left out, because a matched route parameter is never empty.
- The `throw err` of the category listing's `catch` refers to an undefined name. The handler still answers 500, so the model treats it like any store failure.
- Common.Lower: only ASCII letters are folded. PostgreSQL and JavaScript case-fold other alphabets too.
- Common.ParseWithDefault: the text-to-number step of `parseInt` (leading digits, signs, `"12abc"`) is left out. A parameter is given as a number or as text that reads as NaN.
- SqlLike.Like: the escape character is not interpreted. The substring and prefix lemmas assume terms without `%`, `_` or `\`.
- BookingController.GetAllBookings: `totalPages` divides by the parsed limit. The source divides by the raw query-string text. JavaScript reads a plain numeral as the same number, but text such as `5abc` or `5.5` gives a different `totalPages` (NaN or a fraction's page count). That case is not modelled.
- BookingController.CancelBooking: the path id is an integer. A non-numeric id makes `parseInt` give NaN, which the database refuses (500). That case is not modelled.
- EventController.GetEventById: a numeral outside the integer column's range also fails in the database. That is not modelled; every numeral is read as its value.
- EventController.UpdateEventById: a path id is a number or text the database cannot compare with an integer (500). The 500 for a body value of the wrong type is not modelled.
- EventController.CreateEvent: `capacity` and `price` are integers, given as JSON numbers or as numeric text. A fractional value, or a text `isNaN` accepts but the column refuses (such as `" "`), fails in the database (500); that is not modelled, and neither is a `category_id` naming no category (a foreign-key failure) or a `time` the column cannot read. EventService.CreateEventService and EventModel.InsertEvent fail only for the date and the two ids. `state_id` and `city_id` are either falsy, read by `parseInt` as a number, or read as NaN.
- Common.Paginate: numbers are exact integers. JavaScript computes `(page - 1) * limit` in floating point, which rounds above 2^53, so a product just below the `bigint` bound can be rounded past it. That case is not modelled.
- Common.Upper: only the ASCII letters and `ſ` are upper-cased. No other character upper-cases to `A`, `S` or `C` on its own, so the test for `ASC` is exact.
- BookingController.CreateBooking: `user_id`, `event_id` and `num_tickets` are integers, with 0 for absent. String or fractional JSON values are not modelled.
- Ledger.RunAllSound: covers bookings through the checked handler, cancellations, event creations and deletions. `updateEventById` is excluded because it stores any seat numbers it is given, so no invariant survives it (Ledger.UpdateCanUnbalance).

## Findings

| source | as written | input that shows it | evidently intended | confidence | as-written member | corrected member |
|---|---|---|---|---|---|---|
| src/controllers/bookingController.js:11-25 | `!num_tickets` rejects only 0, and `available_seats < num_tickets` never holds for a negative count, so a negative number of tickets is booked and the seat update adds seats | an active event with capacity 10 and 10 seats left, and a booking of `num_tickets = -5`: 201, and the event shows 15 seats left | a ticket count must be a positive integer, so that seats left stay between 0 and the capacity | not executed; high, read from the code | Ledger.NegativeTicketsOverfill | Ledger.CreateBookingChecked |

=== FILE: booking_controller.dfy ===
/**
 * The booking handlers: creating a booking (the seat ledger's only
 * writer), cancelling one, and the two listings with their gates,
 * defaults and page arithmetic.  Each request is one atomic step from a
 * store to a reply and a new store.
 */
module BookingController {
  import opened Common
  import opened Store
  import opened RoleVerify
  import EventModel
  import opened BookingModel

  /** The request body of a booking; `0` / `""` stand for a missing or falsy field. */
  datatype BookingRequest = BookingRequest(userId: int, eventId: int, numTickets: int, status: string)

  /** `!user_id || !event_id || !num_tickets`. */
  predicate MissingField(req: BookingRequest) {
    req.userId == 0 || req.eventId == 0 || req.numTickets == 0
  }

  /** `req.body.status || "pending"`. */
  function InitialStatus(req: BookingRequest): string {
    if req.status != "" then req.status else "pending"
  }

  /**
   * `createBooking` as written: validate, look the event up (active only),
   * compare against the seats left, insert the booking, then overwrite the
   * seat count with `available_seats - num_tickets`.
   */
  function CreateBooking(s: Store, req: BookingRequest, now: int): (r: Step<Booking>)
    ensures r.reply.status == BadRequest <==> MissingField(req)
    ensures r.reply.status == NotFound <==> !MissingField(req) && EventModel.FetchEventById(s, req.eventId).None?
    ensures r.reply.status == ServerError <==>
      && !MissingField(req) && EventModel.FetchEventById(s, req.eventId).Some?
      && s.events[req.eventId].availableSeats < req.numTickets
    ensures r.reply.status == Created <==>
      && !MissingField(req) && EventModel.FetchEventById(s, req.eventId).Some?
      && s.events[req.eventId].availableSeats >= req.numTickets
    ensures r.reply.status != Created ==> r.store == s && r.reply.body.None?
    ensures r.reply.status == Created ==> r.reply.body.Some?
    ensures r.reply.status == Created ==>
      var e := s.events[req.eventId];
      var b := r.reply.body.value;
      && e.isActive
      && b.bookingId == s.nextBookingId
      && b.userId == req.userId && b.eventId == req.eventId && b.numTickets == req.numTickets
      && b.totalAmount == e.price * req.numTickets
      && b.status == InitialStatus(req)
      && b.createdBy == req.userId && b.updatedBy == req.userId
      && r.store.bookings == s.bookings[s.nextBookingId := b]
      && r.store.events == s.events[req.eventId := e.(availableSeats := e.availableSeats - req.numTickets, updatedAt := now)]
      && r.store.events[req.eventId].availableSeats >= 0
      && r.store.categories == s.categories
      && r.store.nextEventId == s.nextEventId && r.store.nextBookingId == s.nextBookingId + 1
  {
    if MissingField(req) then Step(Reply(BadRequest, None), s)
    else
      match EventModel.FetchEventById(s, req.eventId)
      case None => Step(Reply(NotFound, None), s)
      case Some(row) =>
        var event := row.event;
        if event.availableSeats < req.numTickets then Step(Reply(ServerError, None), s)
        else
          var totalAmount := event.price * req.numTickets;
          var inserted := InsertBooking(s, BookingData(req.userId, req.eventId, req.numTickets, totalAmount,
                                                       InitialStatus(req), req.userId, req.userId), now);
          var seats := UpdateAvailableSeats(inserted.store, req.eventId, event.availableSeats - req.numTickets, now);
          Step(Reply(Created, inserted.row), seats.store)
  }

  /** With a positive ticket count, a successful booking strictly lowers the seats left and keeps them non-negative. */
  lemma BookingConsumesSeats(s: Store, req: BookingRequest, now: int)
    requires req.numTickets > 0
    requires CreateBooking(s, req, now).reply.status == Created
    ensures var after := CreateBooking(s, req, now).store.events[req.eventId].availableSeats;
      0 <= after < s.events[req.eventId].availableSeats
  {
  }

  /** What a cancellation reply carries: `booking_id` and `status`. */
  datatype CancelledBooking = CancelledBooking(bookingId: int, status: string)

  /**
   * `cancelBooking`: 400 for an unknown booking, 403 unless the caller owns
   * it or is an admin; otherwise the status becomes `cancelled`, already
   * cancelled or not, and the event's seat count is left alone.
   */
  function CancelBooking(s: Store, caller: Caller, bookingId: int, now: int): (r: Step<CancelledBooking>)
    ensures r.reply.status == BadRequest <==> bookingId !in s.bookings
    ensures r.reply.status == Forbidden <==>
      bookingId in s.bookings && caller.userId != s.bookings[bookingId].userId && caller.role != "admin"
    ensures r.reply.status == Ok <==>
      bookingId in s.bookings && (caller.userId == s.bookings[bookingId].userId || caller.role == "admin")
    ensures r.reply.status != Ok ==> r.store == s && r.reply.body.None?
    ensures r.reply.status == Ok ==>
      && r.reply.body == Some(CancelledBooking(bookingId, "cancelled"))
      && r.store == s.(bookings := s.bookings[bookingId := s.bookings[bookingId].(status := "cancelled", updatedAt := now)])
  {
    match FetchBookingId(s, bookingId)
    case None => Step(Reply(BadRequest, None), s)
    case Some(booking) =>
      if caller.userId != booking.userId && caller.role != "admin" then Step(Reply(Forbidden, None), s)
      else
        var w := UpdateBookingStatus(s, bookingId, now);
        Step(Reply(Ok, Some(CancelledBooking(bookingId, w.row.value.status))), w.store)
  }

  /** Cancelling again succeeds again and still leaves every event's seats alone. */
  lemma CancelIsRepeatable(s: Store, caller: Caller, bookingId: int, now: int, later: int)
    requires CancelBooking(s, caller, bookingId, now).reply.status == Ok
    ensures var s1 := CancelBooking(s, caller, bookingId, now).store;
      && CancelBooking(s1, caller, bookingId, later).reply.status == Ok
      && CancelBooking(s1, caller, bookingId, later).store.events == s.events
      && CancelBooking(s1, caller, bookingId, later).store.bookings.Keys == s.bookings.Keys
      && CancelBooking(s1, caller, bookingId, later).store.bookings[bookingId].status == "cancelled"
  {
  }

  // --- listings ---------------------------------------------------------

  /** The admin listing's query string; `""` stands for a parameter left out. */
  datatype AllBookingsArgs = AllBookingsArgs(
    search: string, status: string, sort: string, order: string, page: NumArg, limit: NumArg)

  /** The arguments `getAllBookings` hands to the store: defaults `booking_date`, `DESC`, page 1, limit 10. */
  function AllBookingsQueryOf(a: AllBookingsArgs): (q: AllBookingsQuery)
    ensures q.search == a.search && q.status == a.status
    ensures q.page == ParseWithDefault(a.page, 1) && q.limit == ParseWithDefault(a.limit, 10)
    ensures a.sort != "" ==> q.sort == a.sort
    ensures a.order != "" ==> q.order == a.order
    ensures a.sort == "" ==> AllBookingsPlan(q).sortKey == "booking_date"
    ensures a.order == "" ==> AllBookingsPlan(q).order == Desc
  {
    AllBookingsQuery(a.search, a.status,
                     if a.sort != "" then a.sort else "booking_date",
                     if a.order != "" then a.order else "DESC",
                     ParseWithDefault(a.page, 1), ParseWithDefault(a.limit, 10))
  }

  datatype AllBookingsBody = AllBookingsBody(page: int, limit: int, total: nat, totalPages: nat, data: seq<BookingRow>)

  /**
   * `getAllBookings`: 403 for a non-admin; 500 when the store rejects the
   * page arithmetic; 404 for an empty page; otherwise the page, the total
   * of matching bookings and `ceil(total / limit)` pages.
   */
  function GetAllBookings(rows: seq<BookingRow>, caller: Caller, a: AllBookingsArgs): (r: Reply<AllBookingsBody>)
    ensures r.status == Forbidden <==> caller.role != "admin"
    ensures r.status == ServerError <==>
      caller.role == "admin" && !PageArgsAccepted(AllBookingsQueryOf(a).page, AllBookingsQueryOf(a).limit)
    ensures r.status == NotFound <==>
      var q := AllBookingsQueryOf(a);
      && caller.role == "admin" && PageArgsAccepted(q.page, q.limit)
      && Slice(AllBookingsKept(q, rows), PageStart(q.page, q.limit), q.limit.value) == []
    ensures r.status in {Forbidden, ServerError, NotFound, Ok}
    ensures r.status != Ok ==> r.body.None?
    ensures r.status == Ok ==>
      var q := AllBookingsQueryOf(a);
      var kept := AllBookingsKept(q, rows);
      && r.body.Some?
      && r.body.value.limit >= 1 && r.body.value.limit == q.limit.value && r.body.value.page == q.page.value
      && r.body.value.data != []
      && r.body.value.data == Slice(kept, PageStart(q.page, q.limit), q.limit.value)
      && r.body.value.total == |kept|
      && r.body.value.totalPages == CeilDiv(|kept|, q.limit.value)
  {
    if caller.role != "admin" then Reply(Forbidden, None)
    else
      var q := AllBookingsQueryOf(a);
      match FetchAllBookings(rows, q)
      case None => Reply(ServerError, None)
      case Some(result) =>
        var page, limit := q.page.value, q.limit.value;
        if |result.bookings| == 0 then Reply(NotFound, None)
        else
          Reply(Ok, Some(AllBookingsBody(page, limit, result.totalCount, CeilDiv(result.totalCount, limit),
                                         result.bookings)))
  }

  /** The user listing's query string; `""` stands for a parameter left out. */
  datatype UserBookingsArgs = UserBookingsArgs(
    page: NumArg, limit: NumArg, search: string, filter: string, sortBy: string, sortOrder: string)

  /** `req.query.sortOrder === "desc" ? "DESC" : "ASC"`: only the exact lower-case word sorts descending. */
  function UserSortOrder(arg: string): (o: Order)
    ensures o == Desc <==> arg == "desc"
  {
    if arg == "desc" then Desc else Asc
  }

  /** The arguments `getUserBookings` hands to the store: falsy page and limit become 1 and 6. */
  function UserBookingsQueryOf(userId: int, a: UserBookingsArgs): (q: UserBookingsQuery)
    ensures q.userId == userId && q.search == a.search && q.filter == a.filter
    ensures q.limit == ParseOrDefault(a.limit, 6)
    ensures q.offset == (ParseOrDefault(a.page, 1) - 1) * q.limit
    ensures q.sortOrder == Desc <==> a.sortOrder == "desc"
    ensures a.sortBy != "" ==> q.sortBy == a.sortBy
    ensures a.sortBy == "" ==> q.sortBy == "booking_date"
  {
    var page := ParseOrDefault(a.page, 1);
    var limit := ParseOrDefault(a.limit, 6);
    UserBookingsQuery(userId, a.search, a.filter, if a.sortBy != "" then a.sortBy else "booking_date",
                      UserSortOrder(a.sortOrder), limit, (page - 1) * limit)
  }

  datatype UserBookingsBody = UserBookingsBody(data: seq<BookingRow>, totalPages: nat)

  /**
   * `getUserBookings`: 403 unless the path's user id is the caller's own;
   * 500 when the store rejects a limit or offset that is negative or beyond
   * `bigint`; 404 for an empty page; otherwise the page and the number of
   * pages of ALL of the user's bookings, whatever the search and status
   * filters.
   */
  function GetUserBookings(rows: seq<BookingRow>, caller: Caller, userIdParam: JsInt, a: UserBookingsArgs)
    : (r: Reply<UserBookingsBody>)
    ensures r.status == Forbidden <==> userIdParam != Some(caller.userId)
    ensures r.status in {Forbidden, ServerError, NotFound, Ok}
    ensures r.status == ServerError <==>
      userIdParam == Some(caller.userId) &&
      !(AcceptedCount(UserBookingsQueryOf(caller.userId, a).limit) && AcceptedCount(UserBookingsQueryOf(caller.userId, a).offset))
    ensures r.status == NotFound <==>
      var q := UserBookingsQueryOf(caller.userId, a);
      && userIdParam == Some(caller.userId) && AcceptedCount(q.limit) && AcceptedCount(q.offset)
      && Slice(UserBookingsKept(q, rows), q.offset, q.limit) == []
    ensures r.status != Ok ==> r.body.None?
    ensures r.status == Ok ==>
      var q := UserBookingsQueryOf(caller.userId, a);
      && r.body.Some?
      && q.limit >= 1
      && r.body.value.data != []
      && r.body.value.data == Slice(UserBookingsKept(q, rows), q.offset, q.limit)
      && (forall i :: 0 <= i < |r.body.value.data| ==> r.body.value.data[i].userId == caller.userId)
      && r.body.value.totalPages == CeilDiv(|RowsOfUser(caller.userId, rows)|, q.limit)
  {
    if userIdParam != Some(caller.userId) then Reply(Forbidden, None)
    else
      var q := UserBookingsQueryOf(caller.userId, a);
      match FetchBookingsByUser(rows, q)
      case None => Reply(ServerError, None)
      case Some(result) =>
        if |result.bookings| == 0 then Reply(NotFound, None)
        else
          Reply(Ok, Some(UserBookingsBody(result.bookings, CeilDiv(result.totalCount, q.limit))))
  }
}

=== FILE: booking_model.dfy ===
/**
 * The booking store operations: inserting a booking, overwriting an
 * event's seat count, looking a booking up, cancelling it, counting
 * bookings, and the two paginated booking listings, each modelled as a
 * query plan (conditions with numbered placeholders, sort key, direction,
 * parameter list) plus the meaning the database gives to that plan.
 */
module BookingModel {
  import opened Common
  import opened SqlLike
  import opened Store
  import EventModel

  /** The columns the insert writes; `created_at` / `updated_at` are the clock. */
  datatype BookingData = BookingData(
    userId: int, eventId: int, numTickets: int, totalAmount: int, status: string,
    createdBy: int, updatedBy: int)

  datatype BookingWrite = BookingWrite(row: Option<Booking>, store: Store)

  /** `createBooking` (store side): a new row under the next serial id, every column from the record. */
  function InsertBooking(s: Store, d: BookingData, now: int): (w: BookingWrite)
    ensures w.row.Some?
    ensures w.store == s.(bookings := s.bookings[s.nextBookingId := w.row.value], nextBookingId := s.nextBookingId + 1)
    ensures var b := w.row.value;
      && b.bookingId == s.nextBookingId && b.userId == d.userId && b.eventId == d.eventId
      && b.numTickets == d.numTickets && b.totalAmount == d.totalAmount && b.status == d.status
      && b.createdBy == d.createdBy && b.updatedBy == d.updatedBy
      && b.createdAt == now && b.updatedAt == now
  {
    var b := Booking(s.nextBookingId, d.userId, d.eventId, d.numTickets, d.totalAmount, d.status,
                     now, now, d.createdBy, d.updatedBy);
    BookingWrite(Some(b), s.(bookings := s.bookings[s.nextBookingId := b], nextBookingId := s.nextBookingId + 1))
  }

  /**
   * `updateAvailableSeats`: writes the given absolute seat count (and
   * `updated_at`) into the event, whether or not it is active.
   */
  function UpdateAvailableSeats(s: Store, eventId: int, newSeats: int, now: int): (w: EventModel.EventWrite)
    ensures w.row.Some? <==> eventId in s.events
    ensures eventId !in s.events ==> w.store == s
    ensures eventId in s.events ==>
      && w.row.value == s.events[eventId].(availableSeats := newSeats, updatedAt := now)
      && w.store == s.(events := s.events[eventId := w.row.value])
  {
    if eventId in s.events then
      var e := s.events[eventId].(availableSeats := newSeats, updatedAt := now);
      EventModel.EventWrite(Some(e), s.(events := s.events[eventId := e]))
    else EventModel.EventWrite(None, s)
  }

  /** `fetchBookingId`. */
  function FetchBookingId(s: Store, id: int): (r: Option<Booking>)
    ensures r.Some? <==> id in s.bookings
    ensures r.Some? ==> r.value == s.bookings[id]
  {
    if id in s.bookings then Some(s.bookings[id]) else None
  }

  /**
   * `updateBookingStatus`: sets the status to `cancelled` and stamps
   * `updated_at`, whatever the status was; no event row is touched.
   */
  function UpdateBookingStatus(s: Store, id: int, now: int): (w: BookingWrite)
    ensures w.row.Some? <==> id in s.bookings
    ensures id !in s.bookings ==> w.store == s
    ensures id in s.bookings ==>
      && w.row.value == s.bookings[id].(status := "cancelled", updatedAt := now)
      && w.store == s.(bookings := s.bookings[id := w.row.value])
      && w.store.events == s.events
  {
    if id in s.bookings then
      var b := s.bookings[id].(status := "cancelled", updatedAt := now);
      BookingWrite(Some(b), s.(bookings := s.bookings[id := b]))
    else BookingWrite(None, s)
  }

  /** `countAllBookings`. */
  function CountAllBookings(s: Store): nat {
    |s.bookings|
  }

  // ---------------------------------------------------------------------
  // The listings
  // ---------------------------------------------------------------------

  /** A booking joined with its user and its event, as both listings select it. */
  datatype BookingRow = BookingRow(
    bookingId: int, bookingDate: int, numTickets: int, totalAmount: int, status: string,
    userId: int, userName: string, userEmail: string,
    eventTitle: string, eventLocation: string, eventDate: string)

  /** One `WHERE` conjunct, naming the placeholder `$slot` it reads. */
  datatype Condition =
    | StatusIs(slot: nat)               // b.status = $slot
    | PeopleOrEventLike(slot: nat)      // LOWER(u.name|u.email|e.title|e.location) LIKE LOWER($slot)
    | UserIs(slot: nat)                 // b.user_id = $slot
    | TitleOrLocationLike(slot: nat)    // LOWER(e.title|e.location) LIKE $slot

  /** The value bound to `$k`, if the parameter list is long enough. */
  function Bound(values: seq<Param>, k: nat): Option<Param> {
    if 1 <= k <= |values| then Some(values[k - 1]) else None
  }

  predicate Holds(c: Condition, values: seq<Param>, r: BookingRow) {
    match c
    case StatusIs(k) => Bound(values, k) == Some(Text(r.status))
    case UserIs(k) => Bound(values, k) == Some(Int(r.userId))
    case PeopleOrEventLike(k) =>
      Bound(values, k).Some? && Bound(values, k).value.Text? &&
      var p := Bound(values, k).value.s;
      ILike(r.userName, p) || ILike(r.userEmail, p) || ILike(r.eventTitle, p) || ILike(r.eventLocation, p)
    case TitleOrLocationLike(k) =>
      Bound(values, k).Some? && Bound(values, k).value.Text? &&
      var p := Bound(values, k).value.s;
      Like(Lower(r.eventTitle), p) || Like(Lower(r.eventLocation), p)
  }

  /** The conjunction of the conditions (an empty list is no `WHERE` at all). */
  predicate HoldsAll(conds: seq<Condition>, values: seq<Param>, r: BookingRow) {
    forall i :: 0 <= i < |conds| ==> Holds(conds[i], values, r)
  }

  /** Conditions that number their placeholders consecutively from `first`. */
  predicate NumberedFrom(conds: seq<Condition>, first: nat) {
    forall i :: 0 <= i < |conds| ==> conds[i].slot == first + i
  }

  /** What a listing sends to the database: the page query and the count query. */
  datatype QueryPlan = QueryPlan(
    conditions: seq<Condition>,
    sortKey: string,
    order: Order,
    limitSlot: nat,
    offsetSlot: nat,
    values: seq<Param>,
    countConditions: seq<Condition>,
    countValues: seq<Param>)

  datatype BookingsPage = BookingsPage(bookings: seq<BookingRow>, totalCount: nat)

  /** The rows a `WHERE` clause built from `conds` keeps, in table order. */
  function PlanRows(conds: seq<Condition>, values: seq<Param>, rows: seq<BookingRow>): seq<BookingRow> {
    Filter(x => HoldsAll(conds, values, x), rows)
  }

  /**
   * Runs a plan over the joined rows (taken in the order its `ORDER BY`
   * yields): the page of rows the page query keeps, and how many rows the
   * count query keeps; `None` when `LIMIT` / `OFFSET` are rejected.
   */
  function Run(p: QueryPlan, rows: seq<BookingRow>): (r: Option<BookingsPage>)
    ensures r.Some? <==>
      && Bound(p.values, p.limitSlot).Some? && Bound(p.values, p.offsetSlot).Some?
      && Paginate(rows, Bound(p.values, p.limitSlot).value, Bound(p.values, p.offsetSlot).value).Some?
    ensures r.Some? ==>
      r.value.bookings == Slice(PlanRows(p.conditions, p.values, rows),
                                Bound(p.values, p.offsetSlot).value.n, Bound(p.values, p.limitSlot).value.n)
    ensures r.Some? ==> r.value.totalCount == |PlanRows(p.countConditions, p.countValues, rows)|
  {
    var limit := Bound(p.values, p.limitSlot);
    var offset := Bound(p.values, p.offsetSlot);
    if limit.None? || offset.None? then None
    else
      match Paginate(PlanRows(p.conditions, p.values, rows), limit.value, offset.value)
      case None => None
      case Some(page) => Some(BookingsPage(page, |PlanRows(p.countConditions, p.countValues, rows)|))
  }

  // --- fetchAllBookings -------------------------------------------------

  datatype AllBookingsQuery = AllBookingsQuery(
    search: string, status: string, sort: string, order: string, page: JsInt, limit: JsInt)

  const AllBookingsSortKeys: seq<string> := ["booking_date", "event_date", "status", "total_amount"]

  /** The plan `fetchAllBookings` builds. */
  function AllBookingsPlan(q: AllBookingsQuery): (p: QueryPlan)
    ensures NumberedFrom(p.conditions, 1)
    ensures |p.conditions| == (if q.status != "" then 1 else 0) + (if q.search != "" then 1 else 0)
    ensures |p.values| == |p.conditions| + 2
    ensures q.status != "" ==> p.conditions[0] == StatusIs(1) && p.values[0] == Text(q.status)
    ensures q.search != "" ==>
      && p.conditions[|p.conditions| - 1] == PeopleOrEventLike(|p.conditions|)
      && p.values[|p.conditions| - 1] == Text("%" + q.search + "%")
    ensures p.limitSlot == |p.conditions| + 1 && p.offsetSlot == |p.conditions| + 2
    ensures p.values[p.limitSlot - 1] == NumParam(q.limit)
    ensures p.values[p.offsetSlot - 1] == NumParam(PageOffset(q.page, q.limit))
    ensures p.countConditions == p.conditions
    ensures p.countValues == p.values[..|p.values| - 2]
    ensures p.sortKey in AllBookingsSortKeys
    ensures q.sort in AllBookingsSortKeys ==> p.sortKey == q.sort
    ensures q.sort !in AllBookingsSortKeys ==> p.sortKey == "booking_date"
    ensures p.order == Asc <==> Upper(q.order) == "ASC"
  {
    // each given filter takes the next placeholder number, as the source's running `paramIndex` does
    var pattern := Text("%" + q.search + "%");
    var (conds, filters) :=
      if q.status != "" && q.search != "" then ([StatusIs(1), PeopleOrEventLike(2)], [Text(q.status), pattern])
      else if q.status != "" then ([StatusIs(1)], [Text(q.status)])
      else if q.search != "" then ([PeopleOrEventLike(1)], [pattern])
      else ([], []);
    var n := |conds|;
    var values := filters + [NumParam(q.limit), NumParam(PageOffset(q.page, q.limit))];
    assert values[..|values| - 2] == filters;
    var sortKey := if q.sort in AllBookingsSortKeys then q.sort else "booking_date";
    QueryPlan(conds, sortKey, NormalizeOrder(q.order), n + 1, n + 2, values, conds, filters)
  }

  /** Which rows the admin listing is meant to show, in terms of the handler's inputs. */
  predicate AllBookingsSelected(q: AllBookingsQuery, r: BookingRow) {
    && (q.status == "" || r.status == q.status)
    && (q.search == "" ||
        var p := "%" + q.search + "%";
        ILike(r.userName, p) || ILike(r.userEmail, p) || ILike(r.eventTitle, p) || ILike(r.eventLocation, p))
  }

  /** The selected rows, in the order the table yields them. */
  function AllBookingsKept(q: AllBookingsQuery, rows: seq<BookingRow>): seq<BookingRow> {
    Filter(x => AllBookingsSelected(q, x), rows)
  }

  /** The page query and the count query both keep exactly the selected rows. */
  lemma AllBookingsPlanSelects(q: AllBookingsQuery, r: BookingRow)
    ensures var p := AllBookingsPlan(q);
      && (HoldsAll(p.conditions, p.values, r) <==> AllBookingsSelected(q, r))
      && (HoldsAll(p.countConditions, p.countValues, r) <==> AllBookingsSelected(q, r))
  {
    var p := AllBookingsPlan(q);
    var n := |p.conditions|;
    // every condition's placeholder lies within the filter parameters the count query keeps
    assert forall i :: 0 <= i < n ==> p.countValues[i] == p.values[i];
    if q.status != "" {
      assert Holds(p.conditions[0], p.values, r) <==> r.status == q.status;
      assert Holds(p.conditions[0], p.countValues, r) <==> r.status == q.status;
    }
    if q.search != "" {
      assert Holds(p.conditions[n - 1], p.values, r) <==> AllBookingsSelected(q.(status := ""), r);
      assert Holds(p.conditions[n - 1], p.countValues, r) <==> AllBookingsSelected(q.(status := ""), r);
    }
  }

  /** For a search term free of metacharacters, the search is a case-insensitive substring test on four columns. */
  lemma AllBookingsSearchIsSubstring(q: AllBookingsQuery, r: BookingRow)
    requires NoMeta(q.search)
    ensures AllBookingsSelected(q, r) <==>
      && (q.status == "" || r.status == q.status)
      && (q.search == "" ||
          var s := Lower(q.search);
          Contains(Lower(r.userName), s) || Contains(Lower(r.userEmail), s) ||
          Contains(Lower(r.eventTitle), s) || Contains(Lower(r.eventLocation), s))
  {
    ILikeSubstring(r.userName, q.search);
    ILikeSubstring(r.userEmail, q.search);
    ILikeSubstring(r.eventTitle, q.search);
    ILikeSubstring(r.eventLocation, q.search);
  }

  /** The page query and the count query of the admin plan keep the selected rows. */
  lemma AllBookingsPlanRows(q: AllBookingsQuery, rows: seq<BookingRow>)
    ensures var p := AllBookingsPlan(q);
      && PlanRows(p.conditions, p.values, rows) == AllBookingsKept(q, rows)
      && PlanRows(p.countConditions, p.countValues, rows) == AllBookingsKept(q, rows)
  {
    var p := AllBookingsPlan(q);
    forall x | x in rows
      ensures HoldsAll(p.conditions, p.values, x) == AllBookingsSelected(q, x)
      ensures HoldsAll(p.countConditions, p.countValues, x) == AllBookingsSelected(q, x)
    {
      AllBookingsPlanSelects(q, x);
    }
    FilterAgrees(x => HoldsAll(p.conditions, p.values, x), x => AllBookingsSelected(q, x), rows);
    FilterAgrees(x => HoldsAll(p.countConditions, p.countValues, x), x => AllBookingsSelected(q, x), rows);
  }

  /** Running the admin plan yields the selected rows' page and count. */
  lemma AllBookingsRunSelects(q: AllBookingsQuery, rows: seq<BookingRow>)
    ensures var r := Run(AllBookingsPlan(q), rows);
      && (r.Some? <==> PageArgsAccepted(q.page, q.limit))
      && (r.Some? ==> r.value.bookings == Slice(AllBookingsKept(q, rows), PageStart(q.page, q.limit), q.limit.value))
      && (r.Some? ==> r.value.totalCount == |AllBookingsKept(q, rows)|)
  {
    var p := AllBookingsPlan(q);
    AllBookingsPlanRows(q, rows);
    var limit, offset := NumParam(q.limit), NumParam(PageOffset(q.page, q.limit));
    assert Bound(p.values, p.limitSlot) == Some(limit);
    assert Bound(p.values, p.offsetSlot) == Some(offset);
    assert limit.Int? && AcceptedCount(limit.n) && offset.Int? && AcceptedCount(offset.n) <==> PageArgsAccepted(q.page, q.limit);
  }

  /**
   * `fetchAllBookings`: the requested page of the selected rows and the
   * number of all selected rows, or `None` when the database rejects
   * `LIMIT` / `OFFSET`.
   */
  function FetchAllBookings(rows: seq<BookingRow>, q: AllBookingsQuery): (r: Option<BookingsPage>)
    ensures r.Some? <==> PageArgsAccepted(q.page, q.limit)
    ensures r.Some? ==>
      r.value.bookings ==
        Slice(AllBookingsKept(q, rows), PageStart(q.page, q.limit), q.limit.value)
    ensures r.Some? ==> r.value.totalCount == |AllBookingsKept(q, rows)|
  {
    AllBookingsRunSelects(q, rows);
    Run(AllBookingsPlan(q), rows)
  }

  // --- fetchBookingsByUser ----------------------------------------------

  /** The arguments the user listing receives: the handler has already computed limit and offset. */
  datatype UserBookingsQuery = UserBookingsQuery(
    userId: int, search: string, filter: string, sortBy: string, sortOrder: Order, limit: int, offset: int)

  const UserBookingsSortKeys: seq<string> := ["booking_date", "event_date", "num_tickets"]

  /** The plan `fetchBookingsByUser` builds. */
  function UserBookingsPlan(q: UserBookingsQuery): (p: QueryPlan)
    ensures NumberedFrom(p.conditions, 1)
    ensures |p.conditions| == 1 + (if q.search != "" then 1 else 0) + (if q.filter != "" then 1 else 0)
    ensures |p.values| == |p.conditions| + 2
    ensures p.conditions[0] == UserIs(1) && p.values[0] == Int(q.userId)
    ensures q.search != "" ==>
      p.conditions[1] == TitleOrLocationLike(2) && p.values[1] == Text("%" + Lower(q.search) + "%")
    ensures q.filter != "" ==>
      && p.conditions[|p.conditions| - 1] == StatusIs(|p.conditions|)
      && p.values[|p.conditions| - 1] == Text(q.filter)
    ensures p.limitSlot == |p.conditions| + 1 && p.offsetSlot == |p.conditions| + 2
    ensures p.values[p.limitSlot - 1] == Int(q.limit) && p.values[p.offsetSlot - 1] == Int(q.offset)
    ensures p.countConditions == [UserIs(1)] && p.countValues == [Int(q.userId)]
    ensures p.sortKey in UserBookingsSortKeys
    ensures q.sortBy in UserBookingsSortKeys ==> p.sortKey == q.sortBy
    ensures q.sortBy !in UserBookingsSortKeys ==> p.sortKey == "booking_date"
    ensures p.order == q.sortOrder
  {
    var conds0, values0, index0 := [UserIs(1)], [Int(q.userId)], 2;
    var conds1 := if q.search != "" then conds0 + [TitleOrLocationLike(index0)] else conds0;
    var values1 := if q.search != "" then values0 + [Text("%" + Lower(q.search) + "%")] else values0;
    var index1 := if q.search != "" then index0 + 1 else index0;
    var conds2 := if q.filter != "" then conds1 + [StatusIs(index1)] else conds1;
    var values2 := if q.filter != "" then values1 + [Text(q.filter)] else values1;
    var index2 := if q.filter != "" then index1 + 1 else index1;
    var sortKey := if q.sortBy in UserBookingsSortKeys then q.sortBy else "booking_date";
    assert |values2| == |conds2| == index2 - 1;
    var values3 := values2 + [Int(q.limit), Int(q.offset)];
    assert values3[index2 - 1] == Int(q.limit) && values3[index2] == Int(q.offset);
    QueryPlan(conds2, sortKey, q.sortOrder, index2, index2 + 1, values3, [UserIs(1)], [Int(q.userId)])
  }

  /** Which rows the user listing is meant to show. */
  predicate UserBookingsSelected(q: UserBookingsQuery, r: BookingRow) {
    && r.userId == q.userId
    && (q.search == "" || ILike(r.eventTitle, "%" + q.search + "%") || ILike(r.eventLocation, "%" + q.search + "%"))
    && (q.filter == "" || r.status == q.filter)
  }

  /** The page query keeps the selected rows; the count query keeps every row of the user. */
  lemma UserBookingsPlanSelects(q: UserBookingsQuery, r: BookingRow)
    ensures var p := UserBookingsPlan(q);
      && (HoldsAll(p.conditions, p.values, r) <==> UserBookingsSelected(q, r))
      && (HoldsAll(p.countConditions, p.countValues, r) <==> r.userId == q.userId)
  {
    var p := UserBookingsPlan(q);
    var n := |p.conditions|;
    LowerWrap(q.search);
    assert Holds(p.conditions[0], p.values, r) <==> r.userId == q.userId;
    if q.search != "" {
      assert Holds(p.conditions[1], p.values, r) <==>
        ILike(r.eventTitle, "%" + q.search + "%") || ILike(r.eventLocation, "%" + q.search + "%");
    }
    if q.filter != "" {
      assert Holds(p.conditions[n - 1], p.values, r) <==> r.status == q.filter;
    }
    assert Holds(p.countConditions[0], p.countValues, r) <==> r.userId == q.userId;
  }

  /** The user's selected rows, in the order the table yields them. */
  function UserBookingsKept(q: UserBookingsQuery, rows: seq<BookingRow>): (kept: seq<BookingRow>)
    ensures forall i :: 0 <= i < |kept| ==> UserBookingsSelected(q, kept[i])
  {
    Filter(x => UserBookingsSelected(q, x), rows)
  }

  /** Every row of one user, whatever its status or event. */
  function RowsOfUser(userId: int, rows: seq<BookingRow>): seq<BookingRow> {
    Filter((x: BookingRow) => x.userId == userId, rows)
  }

  /** Running the user plan yields the selected rows' page and the count of all the user's rows. */
  lemma UserBookingsRunSelects(q: UserBookingsQuery, rows: seq<BookingRow>)
    ensures var r := Run(UserBookingsPlan(q), rows);
      && (r.Some? <==> AcceptedCount(q.limit) && AcceptedCount(q.offset))
      && (r.Some? ==> r.value.bookings == Slice(UserBookingsKept(q, rows), q.offset, q.limit))
      && (r.Some? ==> r.value.totalCount == |RowsOfUser(q.userId, rows)|)
  {
    var p := UserBookingsPlan(q);
    forall x | x in rows
      ensures HoldsAll(p.conditions, p.values, x) == UserBookingsSelected(q, x)
      ensures HoldsAll(p.countConditions, p.countValues, x) == (x.userId == q.userId)
    {
      UserBookingsPlanSelects(q, x);
    }
    assert PlanRows(p.conditions, p.values, rows) == UserBookingsKept(q, rows) by {
      FilterAgrees(x => HoldsAll(p.conditions, p.values, x), x => UserBookingsSelected(q, x), rows);
    }
    assert PlanRows(p.countConditions, p.countValues, rows) == RowsOfUser(q.userId, rows) by {
      FilterAgrees(x => HoldsAll(p.countConditions, p.countValues, x), (x: BookingRow) => x.userId == q.userId, rows);
    }
    assert Bound(p.values, p.limitSlot) == Some(Int(q.limit));
    assert Bound(p.values, p.offsetSlot) == Some(Int(q.offset));
  }

  /** The total counts at least the rows the filters keep. */
  lemma SelectedAmongUserRows(q: UserBookingsQuery, rows: seq<BookingRow>)
    ensures |UserBookingsKept(q, rows)| <= |RowsOfUser(q.userId, rows)|
  {
    FilterNarrower(x => UserBookingsSelected(q, x), (x: BookingRow) => x.userId == q.userId, rows);
  }

  /**
   * `fetchBookingsByUser`: the requested page of the user's selected rows,
   * and a total that counts all of the user's rows, ignoring the search
   * and status filters.
   */
  function FetchBookingsByUser(rows: seq<BookingRow>, q: UserBookingsQuery): (r: Option<BookingsPage>)
    ensures r.Some? <==> AcceptedCount(q.limit) && AcceptedCount(q.offset)
    ensures r.Some? ==> r.value.bookings == Slice(UserBookingsKept(q, rows), q.offset, q.limit)
    ensures r.Some? ==> r.value.totalCount == |RowsOfUser(q.userId, rows)|
    ensures r.Some? ==> r.value.totalCount >= |UserBookingsKept(q, rows)|
  {
    UserBookingsRunSelects(q, rows);
    SelectedAmongUserRows(q, rows);
    Run(UserBookingsPlan(q), rows)
  }

  /** For a search term free of metacharacters, the user search is a case-insensitive substring test. */
  lemma UserBookingsSearchIsSubstring(q: UserBookingsQuery, r: BookingRow)
    requires NoMeta(q.search)
    ensures UserBookingsSelected(q, r) <==>
      && r.userId == q.userId
      && (q.search == "" ||
          Contains(Lower(r.eventTitle), Lower(q.search)) || Contains(Lower(r.eventLocation), Lower(q.search)))
      && (q.filter == "" || r.status == q.filter)
  {
    ILikeSubstring(r.eventTitle, q.search);
    ILikeSubstring(r.eventLocation, q.search);
  }
}

=== FILE: common.dfy ===
/**
 * Shared vocabulary of the booking backend model: optional values, HTTP
 * status codes, the handful of JavaScript string/number behaviours the
 * handlers rely on (falsiness, `parseInt`, `toUpperCase`, `trim`), and
 * integer ceiling division for page counts.
 */
module Common {

  datatype Option<+T> = None | Some(value: T)

  /** The HTTP status codes the handlers answer with. */
  datatype Status = Ok | Created | BadRequest | Forbidden | NotFound | Conflict | ServerError {
    function Code(): int {
      match this
      case Ok => 200
      case Created => 201
      case BadRequest => 400
      case Forbidden => 403
      case NotFound => 404
      case Conflict => 409
      case ServerError => 500
    }
  }

  /** A reply: a status and, for the successful cases, a body. */
  datatype Reply<+T> = Reply(status: Status, body: Option<T>)

  /** A JavaScript number produced by `parseInt`: `None` stands for NaN. */
  type JsInt = Option<int>

  /**
   * A numeric query-string parameter as the handler receives it: left out,
   * text that `parseInt` reads as `n`, or text it reads as NaN.
   */
  datatype NumArg = Missing | Number(n: int) | Garbage

  /** `parseInt(arg ?? dflt, 10)`: a destructuring default, then parsing. */
  function ParseWithDefault(arg: NumArg, dflt: int): (r: JsInt)
    ensures arg.Missing? ==> r == Some(dflt)
    ensures arg.Number? ==> r == Some(arg.n)
    ensures arg.Garbage? <==> r.None?
  {
    match arg
    case Missing => Some(dflt)
    case Number(n) => Some(n)
    case Garbage => None
  }

  /** `parseInt(arg, 10) || dflt`: every falsy result (NaN, 0) becomes the default. */
  function ParseOrDefault(arg: NumArg, dflt: int): (r: int)
    ensures arg.Number? && arg.n != 0 ==> r == arg.n
    ensures !(arg.Number? && arg.n != 0) ==> r == dflt
  {
    match arg
    case Number(n) => if n != 0 then n else dflt
    case _ => dflt
  }

  /** `(page - 1) * limit` on JavaScript numbers: NaN in, NaN out. */
  function PageOffset(page: JsInt, limit: JsInt): (r: JsInt)
    ensures r.Some? <==> page.Some? && limit.Some?
    ensures r.Some? ==> r.value == (page.value - 1) * limit.value
  {
    if page.Some? && limit.Some? then Some((page.value - 1) * limit.value) else None
  }

  /** The largest `bigint`, the type PostgreSQL gives `LIMIT` and `OFFSET`. */
  const MaxBigint: int := 0x7FFF_FFFF_FFFF_FFFF

  /** A value PostgreSQL takes for `LIMIT` or `OFFSET`: a non-negative `bigint`. */
  predicate AcceptedCount(n: int) {
    0 <= n <= MaxBigint
  }

  /** Whether PostgreSQL accepts `LIMIT limit OFFSET (page - 1) * limit`: both numbers, both accepted counts. */
  predicate PageArgsAccepted(page: JsInt, limit: JsInt) {
    page.Some? && limit.Some? && AcceptedCount(limit.value) && AcceptedCount((page.value - 1) * limit.value)
  }

  /** The first row of an accepted page. */
  function PageStart(page: JsInt, limit: JsInt): nat
    requires PageArgsAccepted(page, limit)
  {
    (page.value - 1) * limit.value
  }

  /** Upper-casing of the ASCII letters and of the long s `ſ`, whose upper case is `S`. */
  function UpperChar(c: char): char {
    if 'a' <= c <= 'z' then (c as int - 32) as char
    else if c == '\U{017F}' then 'S'
    else c
  }

  function LowerChar(c: char): char {
    if 'A' <= c <= 'Z' then (c as int + 32) as char else c
  }

  /**
   * `toUpperCase` restricted to the ASCII letters and `ſ`: among the
   * characters JavaScript upper-cases these are the only ones whose upper
   * case is an ASCII letter on its own.
   */
  function Upper(s: string): (r: string)
    ensures |r| == |s|
    ensures forall i :: 0 <= i < |s| ==> r[i] == UpperChar(s[i])
  {
    seq(|s|, i requires 0 <= i < |s| => UpperChar(s[i]))
  }

  /** `toLowerCase` / SQL `LOWER` restricted to the ASCII letters. */
  function Lower(s: string): (r: string)
    ensures |r| == |s|
    ensures forall i :: 0 <= i < |s| ==> r[i] == LowerChar(s[i])
  {
    seq(|s|, i requires 0 <= i < |s| => LowerChar(s[i]))
  }

  /** The characters `String.prototype.trim` removes: white space and line terminators. */
  predicate IsJsSpace(c: char) {
    || c == ' ' || c == '\t' || c == '\n' || c == '\r' || c == '\U{000B}' || c == '\U{000C}'
    || c == '\U{00A0}' || c == '\U{1680}' || ('\U{2000}' <= c <= '\U{200A}')
    || c == '\U{2028}' || c == '\U{2029}' || c == '\U{202F}' || c == '\U{205F}'
    || c == '\U{3000}' || c == '\U{FEFF}'
  }

  /** `s.trim() === ""`. */
  predicate IsBlank(s: string) {
    forall i :: 0 <= i < |s| ==> IsJsSpace(s[i])
  }

  /** `Math.ceil(total / limit)` for a non-negative total and a positive limit. */
  function CeilDiv(total: nat, limit: int): (pages: nat)
    requires limit > 0
    ensures (pages - 1) * limit < total <= pages * limit || (total == 0 && pages == 0)
  {
    (total + limit - 1) / limit
  }

  /** Rows `offset .. offset + limit` of a result, as SQL `LIMIT` / `OFFSET` cut it. */
  function Slice<T>(rows: seq<T>, offset: nat, limit: nat): (page: seq<T>)
    ensures |page| <= limit
    ensures offset >= |rows| ==> page == []
    ensures offset < |rows| ==> page == rows[offset .. if offset + limit <= |rows| then offset + limit else |rows|]
    ensures forall i :: 0 <= i < |page| ==> offset + i < |rows| && page[i] == rows[offset + i]
  {
    if offset >= |rows| then []
    else if offset + limit <= |rows| then rows[offset .. offset + limit]
    else rows[offset ..]
  }

  /** The direction of an `ORDER BY`. */
  datatype Order = Asc | Desc

  /** `order.toUpperCase() === "ASC" ? "ASC" : "DESC"`. */
  function NormalizeOrder(order: string): (r: Order)
    ensures r == Asc <==> Upper(order) == "ASC"
  {
    if Upper(order) == "ASC" then Asc else Desc
  }

  /** The ASC test accepts exactly the three letters a, s, c in any mix of cases, the s also written `ſ`. */
  lemma AscIsCaseInsensitive(order: string)
    ensures NormalizeOrder(order) == Asc <==>
              |order| == 3 && order[0] in "aA" && order[1] in "sS\U{017F}" && order[2] in "cC"
  {
    if |order| == 3 && order[0] in "aA" && order[1] in "sS\U{017F}" && order[2] in "cC" {
      assert Upper(order) == "ASC";
    }
    if Upper(order) == "ASC" {
      assert UpperChar(order[0]) == 'A' && UpperChar(order[1]) == 'S' && UpperChar(order[2]) == 'C';
    }
  }
  /** A value bound to a `$n` placeholder of a parameterised SQL statement. */
  datatype Param = Text(s: string) | Int(n: int) | Null | NotANumber

  /** A JavaScript number handed to the driver as a parameter. */
  function NumParam(n: JsInt): Param {
    match n
    case Some(v) => Int(v)
    case None => NotANumber
  }

  /**
   * `LIMIT $l OFFSET $o` as PostgreSQL applies it: both must be
   * integers between 0 and the largest `bigint`, otherwise the statement
   * fails.
   */
  function Paginate<T>(rows: seq<T>, limit: Param, offset: Param): (r: Option<seq<T>>)
    ensures r.Some? <==> limit.Int? && AcceptedCount(limit.n) && offset.Int? && AcceptedCount(offset.n)
    ensures r.Some? ==> r.value == Slice(rows, offset.n, limit.n)
  {
    if limit.Int? && AcceptedCount(limit.n) && offset.Int? && AcceptedCount(offset.n)
    then Some(Slice(rows, offset.n, limit.n))
    else None
  }

  /** The rows a `WHERE` clause keeps, in their original order. */
  function Filter<T>(keep: T -> bool, rows: seq<T>): (r: seq<T>)
    ensures |r| <= |rows|
    ensures forall i :: 0 <= i < |r| ==> keep(r[i]) && r[i] in rows
    ensures forall x :: x in rows && keep(x) ==> x in r
  {
    if |rows| == 0 then []
    else if keep(rows[0]) then [rows[0]] + Filter(keep, rows[1..])
    else Filter(keep, rows[1..])
  }

  /** Filtering keeps each satisfying row as many times as the table holds it, and no other row. */
  lemma {:induction false} FilterCounts<T>(keep: T -> bool, rows: seq<T>)
    ensures multiset(Filter(keep, rows)) <= multiset(rows)
    ensures forall x :: x in multiset(rows) ==>
      multiset(Filter(keep, rows))[x] == if keep(x) then multiset(rows)[x] else 0
  {
    if |rows| > 0 {
      assert rows == [rows[0]] + rows[1..];
      FilterCounts(keep, rows[1..]);
    }
  }

  /** Filtering keeps the order of the rows: the rows kept from a concatenation are those kept from each part, in turn. */
  lemma {:induction false} FilterConcat<T>(keep: T -> bool, a: seq<T>, b: seq<T>)
    ensures Filter(keep, a + b) == Filter(keep, a) + Filter(keep, b)
  {
    if |a| > 0 {
      assert (a + b)[1..] == a[1..] + b;
      FilterConcat(keep, a[1..], b);
    } else {
      assert a + b == b;
    }
  }

  /** Two conditions that agree on every row keep the same rows. */
  lemma {:induction false} FilterAgrees<T>(a: T -> bool, b: T -> bool, rows: seq<T>)
    requires forall x :: x in rows ==> a(x) == b(x)
    ensures Filter(a, rows) == Filter(b, rows)
  {
    if |rows| > 0 {
      FilterAgrees(a, b, rows[1..]);
    }
  }

  /** A stronger condition keeps no more rows. */
  lemma {:induction false} FilterNarrower<T>(a: T -> bool, b: T -> bool, rows: seq<T>)
    requires forall x :: x in rows && a(x) ==> b(x)
    ensures |Filter(a, rows)| <= |Filter(b, rows)|
  {
    if |rows| > 0 {
      FilterNarrower(a, b, rows[1..]);
    }
  }

  /**
   * Page numbers and limits of at least 1 are accepted while they stay in
   * range, and then a page starting at or past the end of the rows is
   * empty, and only such a page.
   */
  lemma EmptyPageIsPastLastPage<T>(rows: seq<T>, page: JsInt, limit: JsInt)
    requires page.Some? && limit.Some? && page.value >= 1 && limit.value >= 1
    ensures PageArgsAccepted(page, limit) <==> limit.value <= MaxBigint && (page.value - 1) * limit.value <= MaxBigint
    ensures PageArgsAccepted(page, limit) ==>
      (Slice(rows, PageStart(page, limit), limit.value) == [] <==> page.value > CeilDiv(|rows|, limit.value))
  {
    var p, l, n := page.value, limit.value, |rows|;
    var c := CeilDiv(n, l);
    assert (p - 1) * l >= 0 by { MulNonNegative(p - 1, l); }
    if p > c {
      MulMonotone(c, p - 1, l);
    } else if n > 0 {
      MulMonotone(p - 1, c - 1, l);
    }
  }

  lemma MulNonNegative(a: int, b: int)
    requires a >= 0 && b >= 0
    ensures a * b >= 0
  {
  }

  lemma MulMonotone(a: int, b: int, l: int)
    requires a <= b && l >= 0
    ensures a * l <= b * l
  {
  }
}

=== FILE: event_controller.dfy ===
/**
 * The event handlers: the public listing and lookup, update, soft delete,
 * creation by an admin, the dashboard counts and the category listing.
 * Each request is one step from a store to a reply and a new store.
 */
module EventController {
  import opened Common
  import opened Store
  import opened RoleVerify
  import opened EventModel
  import opened EventService
  import BookingModel

  /** `parsed < 1` on a JavaScript number: every comparison with NaN is false. */
  predicate BelowOne(n: JsInt) {
    n.Some? && n.value < 1
  }

  // --- getAllEvents -----------------------------------------------------

  /** The listing's query string; `""` stands for a parameter left out. */
  datatype EventsArgs = EventsArgs(
    page: NumArg, limit: NumArg, title: string, location: string, eventDate: string, category: string)

  datatype EventsBody = EventsBody(data: seq<EventRow>, page: int, limit: int, total: nat)

  function EventsQueryOf(a: EventsArgs): EventsQuery {
    EventsQuery(a.title, a.location, a.eventDate, a.category)
  }

  /**
   * `getAllEvents`: page and limit default to 1 and 8; a page or limit
   * below 1 is a 400, but NaN slips past that test and the store then
   * rejects it (500), as it rejects an offset or limit beyond `bigint` and
   * a date filter it cannot read as a date; an empty page is a 404; otherwise the page of matching active
   * events and their total.  `dateOf` is the database's date cast.
   */
  function GetAllEvents(rows: seq<EventRow>, a: EventsArgs, dateOf: string -> Option<int>): (r: Reply<EventsBody>)
    ensures r.status == BadRequest <==>
      BelowOne(ParseWithDefault(a.page, 1)) || BelowOne(ParseWithDefault(a.limit, 8))
    ensures r.status == ServerError <==>
      var page, limit := ParseWithDefault(a.page, 1), ParseWithDefault(a.limit, 8);
      && !BelowOne(page) && !BelowOne(limit)
      && (a.page.Garbage? || a.limit.Garbage? || !PageArgsAccepted(page, limit)
          || !DateArgAccepted(EventsQueryOf(a), dateOf))
    ensures r.status == NotFound <==>
      var page, limit := ParseWithDefault(a.page, 1), ParseWithDefault(a.limit, 8);
      && page.Some? && limit.Some? && page.value >= 1 && limit.value >= 1 && PageArgsAccepted(page, limit)
      && DateArgAccepted(EventsQueryOf(a), dateOf)
      && Slice(EventsKept(EventsQueryOf(a), dateOf, rows), PageStart(page, limit), limit.value) == []
    ensures r.status in {BadRequest, ServerError, NotFound, Ok}
    ensures r.status != Ok ==> r.body.None?
    ensures r.status == Ok ==>
      var page, limit := ParseWithDefault(a.page, 1), ParseWithDefault(a.limit, 8);
      var kept := EventsKept(EventsQueryOf(a), dateOf, rows);
      && r.body.Some?
      && page.Some? && limit.Some? && page.value >= 1 && limit.value >= 1 && PageArgsAccepted(page, limit)
      && r.body.value.page == page.value && r.body.value.limit == limit.value
      && r.body.value.data != []
      && r.body.value.data == Slice(kept, PageStart(page, limit), limit.value)
      && r.body.value.total == |kept|
      && (forall i :: 0 <= i < |r.body.value.data| ==> r.body.value.data[i].event.isActive)
  {
    var page, limit := ParseWithDefault(a.page, 1), ParseWithDefault(a.limit, 8);
    if BelowOne(page) || BelowOne(limit) then Reply(BadRequest, None)
    else
      match FetchEvents(rows, EventsQueryOf(a), dateOf, page, limit)
      case None => Reply(ServerError, None)
      case Some(result) =>
        if |result.events| == 0 then Reply(NotFound, None)
        else
          assert forall i :: 0 <= i < |result.events| ==> result.events[i] in EventsKept(EventsQueryOf(a), dateOf, rows);
          Reply(Ok, Some(EventsBody(result.events, page.value, limit.value, result.total)))
  }

  /**
   * A valid listing request whose offset and limit fit a `bigint` is a 404
   * exactly when it asks for a page past `ceil(total / limit)`, and a 200
   * otherwise; one that does not fit is a 500.
   */
  lemma EventsNotFoundPastLastPage(rows: seq<EventRow>, a: EventsArgs, dateOf: string -> Option<int>)
    requires a.page.Number? && a.page.n >= 1 && a.limit.Number? && a.limit.n >= 1
    requires DateArgAccepted(EventsQueryOf(a), dateOf)
    ensures var inRange := a.limit.n <= MaxBigint && (a.page.n - 1) * a.limit.n <= MaxBigint;
      GetAllEvents(rows, a, dateOf).status == NotFound <==>
        inRange && a.page.n > CeilDiv(|EventsKept(EventsQueryOf(a), dateOf, rows)|, a.limit.n)
    ensures var inRange := a.limit.n <= MaxBigint && (a.page.n - 1) * a.limit.n <= MaxBigint;
      if inRange then GetAllEvents(rows, a, dateOf).status in {NotFound, Ok}
      else GetAllEvents(rows, a, dateOf).status == ServerError
  {
    EmptyPageIsPastLastPage(EventsKept(EventsQueryOf(a), dateOf, rows), Some(a.page.n), Some(a.limit.n));
  }

  // --- getEventById -----------------------------------------------------

  predicate IsDigit(c: char) {
    '0' <= c <= '9'
  }

  predicate IsHex(c: char) {
    IsDigit(c) || 'a' <= c <= 'f' || 'A' <= c <= 'F'
  }

  /** `/^\d+$/`. */
  predicate IsAllDigits(id: string) {
    |id| > 0 && forall i :: 0 <= i < |id| ==> IsDigit(id[i])
  }

  /** The positions of the four dashes in a UUID. */
  predicate IsDashPosition(i: int) {
    i == 8 || i == 13 || i == 18 || i == 23
  }

  /**
   * The UUID pattern: 8-4-4-4-12 hexadecimal digits where the third group
   * starts with a version digit `1`-`5` and the fourth with a variant
   * digit `8`, `9`, `a` or `b` in either case.
   */
  predicate IsUuid(id: string) {
    && |id| == 36
    && (forall i :: 0 <= i < 36 && IsDashPosition(i) ==> id[i] == '-')
    && (forall i :: 0 <= i < 36 && !IsDashPosition(i) ==> IsHex(id[i]))
    && '1' <= id[14] <= '5'
    && id[19] in "89abAB"
  }

  /** An all-digit id and a UUID-shaped id are never the same text. */
  lemma DigitsAreNotUuid(id: string)
    ensures IsUuid(id) ==> !IsAllDigits(id)
  {
    if IsUuid(id) {
      assert IsDashPosition(8) && id[8] == '-';
    }
  }

  function DigitValue(c: char): nat
    requires IsDigit(c)
  {
    c as int - '0' as int
  }

  /** The number a decimal numeral denotes, as the integer column reads it (leading zeros allowed). */
  function DecimalValue(id: string): nat
    requires forall i :: 0 <= i < |id| ==> IsDigit(id[i])
  {
    if |id| == 0 then 0 else DecimalValue(id[..|id| - 1]) * 10 + DigitValue(id[|id| - 1])
  }

  /** The canonical numeral of `n`. */
  function Numeral(n: nat): (s: string)
    ensures |s| > 0 && forall i :: 0 <= i < |s| ==> IsDigit(s[i])
  {
    if n < 10 then [('0' as int + n) as char] else Numeral(n / 10) + [('0' as int + n % 10) as char]
  }

  /** Every event id has a numeral the route accepts and that reads back as the id. */
  lemma {:induction false} NumeralRoundTrip(n: nat)
    ensures IsAllDigits(Numeral(n))
    ensures DecimalValue(Numeral(n)) == n
  {
    var s := Numeral(n);
    if n >= 10 {
      NumeralRoundTrip(n / 10);
      assert s[..|s| - 1] == Numeral(n / 10);
    }
  }

  /** The lookup reply: the event joined with its category's name. */
  datatype EventDetail = EventDetail(
    eventId: int, title: string, description: string, location: string, eventDate: string, time: string,
    category: string, categoryId: int, imageUrl: string, capacity: int, availableSeats: int, price: int,
    createdAt: int, updatedAt: int, createdBy: int, updatedBy: int)

  function ToDetail(e: Event, categoryName: string): EventDetail {
    EventDetail(e.eventId, e.title, e.description, e.location, e.eventDate, e.time, categoryName,
                e.categoryId, e.imageUrl, e.capacity, e.availableSeats, e.price,
                e.createdAt, e.updatedAt, e.createdBy, e.updatedBy)
  }

  /**
   * `getEventById`: text that is neither all digits nor UUID-shaped is a
   * 400; a UUID-shaped id passes the check but the integer `event_id`
   * column cannot read it (500); a numeral names the event with that
   * number, found only while it is active and its category exists.
   */
  function GetEventById(s: Store, id: string): (r: Reply<EventDetail>)
    ensures r.status == BadRequest <==> !IsAllDigits(id) && !IsUuid(id)
    ensures r.status == ServerError <==> IsUuid(id)
    ensures r.status == NotFound <==> IsAllDigits(id) && FetchEventById(s, DecimalValue(id)).None?
    ensures r.status == Ok <==> IsAllDigits(id) && FetchEventById(s, DecimalValue(id)).Some?
    ensures r.status != Ok ==> r.body.None?
    ensures r.status == Ok ==>
      var e := s.events[DecimalValue(id)];
      && e.isActive && e.categoryId in s.categories
      && r.body == Some(ToDetail(e, s.categories[e.categoryId]))
  {
    DigitsAreNotUuid(id);
    if !IsAllDigits(id) && !IsUuid(id) then Reply(BadRequest, None)
    else if !IsAllDigits(id) then Reply(ServerError, None)
    else
      match FetchEventById(s, DecimalValue(id))
      case None => Reply(NotFound, None)
      case Some(row) => Reply(Ok, Some(ToDetail(row.event, row.categoryName.value)))
  }

  /** The format check does not look at the store: a malformed id is a 400 whatever exists. */
  lemma MalformedIdIgnoresStore(s1: Store, s2: Store, id: string)
    requires GetEventById(s1, id).status == BadRequest
    ensures GetEventById(s2, id).status == BadRequest
  {
  }

  /** An active event with a category is found under its canonical numeral. */
  lemma ActiveEventIsFound(s: Store, id: nat)
    requires id in s.events && s.events[id].isActive && s.events[id].categoryId in s.categories
    ensures GetEventById(s, Numeral(id)).status == Ok
    ensures GetEventById(s, Numeral(id)).body.value.eventId == s.events[id].eventId
  {
    NumeralRoundTrip(id);
  }

  // --- updateEventById / deleteEventById --------------------------------

  /**
   * A path id as the integer `event_id` column reads it: a number, or text
   * the database refuses to compare with an integer.
   */
  datatype PathId = Key(n: int) | NotAKey

  /**
   * The update body.  Text fields and `category_id` are falsy as `""` and
   * `0`; the three numbers are only tested against `undefined`, here `None`.
   */
  datatype UpdateBody = UpdateBody(
    title: string, location: string, eventDate: string, time: string, description: string,
    categoryId: int, imageUrl: string, capacity: Option<int>, availableSeats: Option<int>, price: Option<int>)

  /** The 400 test of `updateEventById`. */
  predicate UpdateRejected(b: UpdateBody) {
    || b.title == "" || b.location == "" || b.eventDate == "" || b.time == ""
    || b.description == "" || b.categoryId == 0 || b.imageUrl == ""
    || b.capacity.None? || b.availableSeats.None? || b.price.None?
  }

  function UpdateOf(b: UpdateBody): EventUpdate
    requires !UpdateRejected(b)
  {
    EventUpdate(b.title, b.location, b.eventDate, b.time, b.description, b.categoryId, b.imageUrl,
                b.capacity.value, b.availableSeats.value, b.price.value)
  }

  /**
   * `updateEventById`: a 400 for a missing field; a 500 for a path id the
   * integer column cannot read; then the overwrite of the event with that
   * id, active or soft-deleted (404 when there is none); the seat numbers
   * are stored as given, unchecked.
   */
  function UpdateEventById(s: Store, id: PathId, b: UpdateBody, now: int): (r: Step<Event>)
    ensures r.reply.status == BadRequest <==> UpdateRejected(b)
    ensures r.reply.status == ServerError <==> !UpdateRejected(b) && id.NotAKey?
    ensures r.reply.status == NotFound <==> !UpdateRejected(b) && id.Key? && id.n !in s.events
    ensures r.reply.status == Ok <==> !UpdateRejected(b) && id.Key? && id.n in s.events
    ensures r.reply.status != Ok ==> r.store == s && r.reply.body.None?
    ensures r.reply.status == Ok ==>
      && r.reply.body ==
           Some(s.events[id.n].(title := b.title, location := b.location, eventDate := b.eventDate,
                                time := b.time, description := b.description, categoryId := b.categoryId,
                                imageUrl := b.imageUrl, capacity := b.capacity.value,
                                availableSeats := b.availableSeats.value, price := b.price.value,
                                updatedAt := now))
      && r.store == s.(events := s.events[id.n := r.reply.body.value])
  {
    if UpdateRejected(b) then Step(Reply(BadRequest, None), s)
    else if id.NotAKey? then Step(Reply(ServerError, None), s)
    else
      var w := UpdateEventsById(s, id.n, UpdateOf(b), now);
      if w.row.None? then Step(Reply(NotFound, None), s)
      else Step(Reply(Ok, w.row), w.store)
  }

  /**
   * Nothing relates the stored seat numbers: an update may set more seats
   * available than the capacity, and a capacity of zero.
   */
  lemma UpdateAcceptsInconsistentSeats(s: Store, id: int, b: UpdateBody, now: int)
    requires id in s.events
    requires !UpdateRejected(b) && b.capacity == Some(0) && b.availableSeats == Some(5)
    ensures var e := UpdateEventById(s, Key(id), b, now).store.events[id];
      e.availableSeats > e.capacity
  {
  }

  /**
   * `deleteEventById`: a 500 for a path id the integer column cannot read;
   * a 404 only for an id with no event; a soft-deleted event is "deleted"
   * again with a 200.
   */
  function DeleteEvent(s: Store, id: PathId, now: int): (r: Step<()>)
    ensures r.reply.status == ServerError <==> id.NotAKey?
    ensures r.reply.status == NotFound <==> id.Key? && id.n !in s.events
    ensures r.reply.status == Ok <==> id.Key? && id.n in s.events
    ensures r.reply.status != Ok ==> r.store == s
    ensures r.reply.status == Ok ==>
      && r.store.events.Keys == s.events.Keys
      && !r.store.events[id.n].isActive
      && r.store.events[id.n] == s.events[id.n].(isActive := false, updatedAt := now)
      && (forall k :: k in s.events && k != id.n ==> r.store.events[k] == s.events[k])
      && r.store.bookings == s.bookings && r.store.categories == s.categories
  {
    if id.NotAKey? then Step(Reply(ServerError, None), s)
    else
      var w := DeleteEventById(s, id.n, now);
      if w.row.None? then Step(Reply(NotFound, None), s)
      else Step(Reply(Ok, Some(())), w.store)
  }

  /** Deleting twice succeeds twice, and afterwards the event is no longer found by the lookup. */
  lemma DeleteIsRepeatable(s: Store, id: nat, now: int, later: int)
    requires id in s.events
    ensures var s1 := DeleteEvent(s, Key(id), now).store;
      && DeleteEvent(s1, Key(id), later).reply.status == Ok
      && GetEventById(s1, Numeral(id)).status == NotFound
  {
    NumeralRoundTrip(id);
  }

  // --- createEvent ------------------------------------------------------

  /**
   * A number in a JSON body: absent or falsy-but-not-zero (`undefined`,
   * `null`, `""`), a JSON number, a non-empty text that JavaScript and the
   * column both read as the number `n` (such as `"0"`), or a truthy value
   * `isNaN` rejects.
   */
  datatype BodyNumber = Absent | Num(n: int) | NumText(n: int) | NonNumeric

  /** `!x`: a non-empty text is truthy even when it reads as `0`. */
  predicate Falsy(x: BodyNumber) {
    x.Absent? || x == Num(0)
  }

  /** `isNaN(x)` is false, and `x` compares with numbers as `x.n`. */
  predicate Numeric(x: BodyNumber) {
    x.Num? || x.NumText?
  }

  /**
   * `state_id` or `city_id` in a body: falsy (left out, `null`, `""`, the
   * number `0`), a truthy value `parseInt` reads as `n`, or one it reads as
   * NaN.
   */
  datatype IdField = NoId | Parsed(n: int) | Unparsable

  /** `parseInt` of a field that passed the falsiness test. */
  function ParseId(x: IdField): (r: JsInt)
    ensures r.Some? <==> x.Parsed?
    ensures x.Parsed? ==> r.value == x.n
  {
    if x.Parsed? then Some(x.n) else None
  }

  /** The creation body; text fields and `category_id` are falsy as `""` and `0`. */
  datatype CreateBody = CreateBody(
    title: string, stateId: IdField, cityId: IdField, location: string, eventDate: string, time: string,
    description: string, categoryId: int, imageUrl: string, capacity: BodyNumber, price: BodyNumber)

  /** The first 400 test: a falsy field.  A numeric price of `0` counts as missing. */
  predicate MissingCreateField(b: CreateBody) {
    || b.title == "" || b.stateId.NoId? || b.cityId.NoId? || b.location == "" || b.eventDate == ""
    || b.time == "" || b.description == "" || b.categoryId == 0 || b.imageUrl == ""
    || Falsy(b.capacity) || Falsy(b.price)
  }

  /** The second 400 test: not numbers, a capacity below 1, a negative price, a date `Date.parse` refuses. */
  predicate InvalidCreateData(b: CreateBody, parsesAsDate: string -> bool) {
    || b.capacity.NonNumeric? || (Numeric(b.capacity) && b.capacity.n <= 0)
    || b.price.NonNumeric? || (Numeric(b.price) && b.price.n < 0)
    || !parsesAsDate(b.eventDate)
    || b.cityId.NoId? || b.stateId.NoId?
  }

  /** The record handed to the service: ids through `parseInt`, all seats available, both audit columns the caller. */
  function CreateDataOf(b: CreateBody, userId: int): (d: EventData)
    requires Numeric(b.capacity) && Numeric(b.price)
  {
    EventData(b.title, ParseId(b.stateId), ParseId(b.cityId), b.location, b.eventDate, b.time, b.description, b.categoryId,
              b.imageUrl, b.capacity.n, b.capacity.n, b.price.n, userId, userId)
  }

  /**
   * `createEvent`: 403 for a non-admin, 400 for missing or invalid fields,
   * 409 when an event with that title and date exists (active or not),
   * 500 when `state_id` or `city_id` reads as NaN and the insert fails,
   * otherwise 201 with the new event, all of whose seats are available.
   * `userId` is the id the token check leaves on the request;
   * `parsesAsDate` is `!isNaN(Date.parse(...))`; `dateOf` is PostgreSQL's
   * cast of a text to the `event_date` column, which may refuse a text
   * `Date.parse` accepts.
   */
  function CreateEvent(s: Store, caller: Caller, userId: int, b: CreateBody,
                       parsesAsDate: string -> bool, dateOf: string -> Option<int>, now: int)
    : (r: Step<EventDto>)
    ensures r.reply.status == Forbidden <==> caller.role != "admin"
    ensures r.reply.status == BadRequest <==>
      caller.role == "admin" && (MissingCreateField(b) || InvalidCreateData(b, parsesAsDate))
    ensures r.reply.status == Conflict <==>
      && caller.role == "admin" && !MissingCreateField(b) && !InvalidCreateData(b, parsesAsDate)
      && HasEventWithTitleAndDate(s, b.title, b.eventDate, dateOf)
    ensures r.reply.status == ServerError <==>
      && caller.role == "admin" && !MissingCreateField(b) && !InvalidCreateData(b, parsesAsDate)
      && (|| dateOf(b.eventDate).None?
          || (!HasEventWithTitleAndDate(s, b.title, b.eventDate, dateOf)
              && (b.stateId.Unparsable? || b.cityId.Unparsable?)))
    ensures r.reply.status == Created <==>
      && caller.role == "admin" && !MissingCreateField(b) && !InvalidCreateData(b, parsesAsDate)
      && dateOf(b.eventDate).Some? && !HasEventWithTitleAndDate(s, b.title, b.eventDate, dateOf)
      && b.stateId.Parsed? && b.cityId.Parsed?
    ensures r.reply.status in {Forbidden, BadRequest, Conflict, ServerError, Created}
    ensures r.reply.status != Created ==> r.store == s && r.reply.body.None?
    ensures r.reply.status == Created ==> r.store.events.Keys == s.events.Keys + {s.nextEventId}
    ensures r.reply.status == Created ==>
      var e := r.store.events[s.nextEventId];
      && r.reply.body.Some?
      && r.store.bookings == s.bookings && r.store.categories == s.categories
      && r.store.nextEventId == s.nextEventId + 1 && r.store.nextBookingId == s.nextBookingId
      && (forall id :: id in s.events && id != s.nextEventId ==> r.store.events[id] == s.events[id])
      && e == Event(s.nextEventId, b.title, b.stateId.n, b.cityId.n, b.location, b.eventDate, b.time,
                    b.description, b.categoryId, b.imageUrl, b.capacity.n, b.capacity.n, b.price.n,
                    true, now, now, userId, userId)
      && e.capacity > 0 && e.price >= 0
      && r.reply.body.value == ToDto(e)
  {
    if caller.role != "admin" then Step(Reply(Forbidden, None), s)
    else if MissingCreateField(b) || InvalidCreateData(b, parsesAsDate) then Step(Reply(BadRequest, None), s)
    else
      var service := CreateEventService(s, CreateDataOf(b, userId), dateOf, now);
      match service.result
      case Thrown(status) => Step(Reply(status, None), service.store)
      case Returned(dto) => Step(Reply(Created, Some(dto)), service.store)
  }

  /** A numeric price of `0` is rejected as a missing field. */
  lemma FreeEventRejected(s: Store, caller: Caller, userId: int, b: CreateBody,
                          parsesAsDate: string -> bool, dateOf: string -> Option<int>, now: int)
    requires caller.role == "admin" && b.price == Num(0)
    ensures CreateEvent(s, caller, userId, b, parsesAsDate, dateOf, now).reply.status == BadRequest
  {
  }

  /**
   * A price sent as the text `"0"` is truthy and not negative, so it passes
   * both tests: the request is answered as with any positive price, and a
   * free event is created.
   */
  lemma ZeroPriceTextAccepted(s: Store, caller: Caller, userId: int, b: CreateBody,
                              parsesAsDate: string -> bool, dateOf: string -> Option<int>, now: int, p: int)
    requires p > 0
    ensures CreateEvent(s, caller, userId, b.(price := NumText(0)), parsesAsDate, dateOf, now).reply.status ==
            CreateEvent(s, caller, userId, b.(price := Num(p)), parsesAsDate, dateOf, now).reply.status
    ensures var r := CreateEvent(s, caller, userId, b.(price := NumText(0)), parsesAsDate, dateOf, now);
      r.reply.status == Created ==> r.store.events[s.nextEventId].price == 0
  {
  }

  /** Sending the same successful creation twice: the second request is a 409 and changes nothing. */
  lemma RepeatedCreateConflicts(s: Store, caller: Caller, userId: int, b: CreateBody,
                                parsesAsDate: string -> bool, dateOf: string -> Option<int>, now: int, later: int)
    requires CreateEvent(s, caller, userId, b, parsesAsDate, dateOf, now).reply.status == Created
    ensures var s1 := CreateEvent(s, caller, userId, b, parsesAsDate, dateOf, now).store;
      && CreateEvent(s1, caller, userId, b, parsesAsDate, dateOf, later).reply.status == Conflict
      && CreateEvent(s1, caller, userId, b, parsesAsDate, dateOf, later).store == s1
  {
    var s1 := CreateEvent(s, caller, userId, b, parsesAsDate, dateOf, now).store;
    var e := s1.events[s.nextEventId];
    assert e.title == b.title && e.eventDate == b.eventDate;
    assert HasEventWithTitleAndDate(s1, b.title, b.eventDate, dateOf);
  }

  // --- getEventStats ----------------------------------------------------

  datatype EventStats = EventStats(totalEvents: nat, activeEvents: nat, cancelledEvents: nat, totalBookings: nat)

  /** `getEventStats`: the three event counts and the booking count, read from the same store. */
  function GetEventStats(s: Store): (st: EventStats)
    ensures st.totalEvents == |s.events| && st.totalBookings == |s.bookings|
    ensures st.activeEvents + st.cancelledEvents == st.totalEvents
    ensures st.activeEvents == |set id | id in s.events && s.events[id].isActive|
  {
    ActivePlusCancelledIsAll(s);
    EventStats(CountAllEvents(s), CountActiveEvents(s), CountCancelledEvents(s), BookingModel.CountAllBookings(s))
  }

  // --- getAllCategories -------------------------------------------------

  datatype CategoriesArgs = CategoriesArgs(page: NumArg, limit: NumArg, name: string)

  datatype CategoriesBody = CategoriesBody(data: seq<CategoryRow>, page: int, limit: int, total: nat)

  /**
   * `getAllCategories`: page and limit default to 1 and 50, with the same
   * checks as the event listing; an empty page is a 404.
   */
  function GetAllCategories(rows: seq<CategoryRow>, a: CategoriesArgs): (r: Reply<CategoriesBody>)
    ensures r.status == BadRequest <==>
      BelowOne(ParseWithDefault(a.page, 1)) || BelowOne(ParseWithDefault(a.limit, 50))
    ensures r.status == ServerError <==>
      var page, limit := ParseWithDefault(a.page, 1), ParseWithDefault(a.limit, 50);
      && !BelowOne(page) && !BelowOne(limit)
      && (a.page.Garbage? || a.limit.Garbage? || !PageArgsAccepted(page, limit))
    ensures r.status == NotFound <==>
      var page, limit := ParseWithDefault(a.page, 1), ParseWithDefault(a.limit, 50);
      && page.Some? && limit.Some? && page.value >= 1 && limit.value >= 1 && PageArgsAccepted(page, limit)
      && Slice(CategoriesKept(a.name, rows), PageStart(page, limit), limit.value) == []
    ensures r.status in {BadRequest, ServerError, NotFound, Ok}
    ensures r.status != Ok ==> r.body.None?
    ensures r.status == Ok ==>
      var page, limit := ParseWithDefault(a.page, 1), ParseWithDefault(a.limit, 50);
      var kept := CategoriesKept(a.name, rows);
      && r.body.Some?
      && page.Some? && limit.Some? && page.value >= 1 && limit.value >= 1 && PageArgsAccepted(page, limit)
      && r.body.value.page == page.value && r.body.value.limit == limit.value
      && r.body.value.data != []
      && r.body.value.data == Slice(kept, PageStart(page, limit), limit.value)
      && r.body.value.total == |kept|
  {
    var page, limit := ParseWithDefault(a.page, 1), ParseWithDefault(a.limit, 50);
    if BelowOne(page) || BelowOne(limit) then Reply(BadRequest, None)
    else
      match FetchCategories(rows, a.name, page, limit)
      case None => Reply(ServerError, None)
      case Some(result) =>
        if |result.categories| == 0 then Reply(NotFound, None)
        else Reply(Ok, Some(CategoriesBody(result.categories, page.value, limit.value, result.total)))
  }

  /** Without query parameters the first fifty matching categories are shown, or a 404 when none match. */
  lemma CategoriesDefaultPage(rows: seq<CategoryRow>, name: string)
    ensures var r := GetAllCategories(rows, CategoriesArgs(Missing, Missing, name));
      && (r.status == NotFound <==> CategoriesKept(name, rows) == [])
      && (r.status == Ok ==> r.body.value.data == Slice(CategoriesKept(name, rows), 0, 50))
  {
    EmptyPageIsPastLastPage(CategoriesKept(name, rows), Some(1), Some(50));
  }
}

=== FILE: event_model.dfy ===
/**
 * The event store operations: the filtered, paginated event listing, the
 * active-only lookup by id, update, soft delete, the (title, date) lookup,
 * insertion, the three event counts and the category listing.
 */
module EventModel {
  import opened Common
  import opened SqlLike
  import opened Store

  /** An event joined with the name of its category (missing under a `LEFT JOIN`). */
  datatype EventRow = EventRow(event: Event, categoryName: Option<string>)

  /** The listing's text filters as the handler passes them; `""` means "not given". */
  datatype EventsQuery = EventsQuery(title: string, location: string, eventDate: string, category: string)

  datatype EventsPage = EventsPage(events: seq<EventRow>, total: nat)

  /** A filter value: `%term%` for a given term, SQL `NULL` for an empty one. */
  function Wrapped(term: string): Param {
    if term != "" then Text("%" + term + "%") else Null
  }

  /** The six parameters of the listing query, in placeholder order `$1 .. $6`. */
  function EventsValues(q: EventsQuery, page: JsInt, limit: JsInt): (values: seq<Param>)
    ensures |values| == 6
    ensures values[0].Null? <==> q.title == ""
    ensures values[1].Null? <==> q.location == ""
    ensures values[2].Null? <==> IsBlank(q.eventDate)
    ensures values[3].Null? <==> q.category == ""
    ensures q.title != "" ==> values[0] == Text("%" + q.title + "%")
    ensures q.location != "" ==> values[1] == Text("%" + q.location + "%")
    ensures !IsBlank(q.eventDate) ==> values[2] == Text(q.eventDate)
    ensures q.category != "" ==> values[3] == Text("%" + q.category + "%")
    ensures values[4] == NumParam(limit)
    ensures values[5] == NumParam(PageOffset(page, limit))
  {
    var validEventDate := if q.eventDate != "" && !IsBlank(q.eventDate) then Text(q.eventDate) else Null;
    assert q.eventDate == "" ==> IsBlank(q.eventDate);
    [Wrapped(q.title), Wrapped(q.location), validEventDate, Wrapped(q.category),
     NumParam(limit), NumParam(PageOffset(page, limit))]
  }

  /** `($k::text IS NULL OR field ILIKE $k)`. */
  predicate NullOrILike(p: Param, field: Option<string>) {
    match p
    case Null => true
    case Text(pattern) => field.Some? && ILike(field.value, pattern)
    case _ => false
  }

  /**
   * `($3::date IS NULL OR e.event_date = $3)`.  `dateOf` is PostgreSQL's
   * reading of a text as a date: the day it names, or `None` when the cast
   * fails.  Two dates are equal when they name the same day.
   */
  predicate NullOrSameDate(p: Param, date: string, dateOf: string -> Option<int>) {
    match p
    case Null => true
    case Text(d) => dateOf(d).Some? && dateOf(date) == dateOf(d)
    case _ => false
  }

  /** The statement can be run: `$3` is `NULL` or text the `::date` cast reads. */
  predicate DateArgAccepted(q: EventsQuery, dateOf: string -> Option<int>) {
    IsBlank(q.eventDate) || dateOf(q.eventDate).Some?
  }

  /** The `WHERE` clause shared by the page query and the count query; it reads `$1 .. $4` only. */
  predicate EventsWhere(values: seq<Param>, dateOf: string -> Option<int>, row: EventRow)
    requires |values| >= 4
  {
    && row.event.isActive
    && NullOrILike(values[0], Some(row.event.title))
    && NullOrILike(values[1], Some(row.event.location))
    && NullOrSameDate(values[2], row.event.eventDate, dateOf)
    && NullOrILike(values[3], row.categoryName)
  }

  /** Which rows the listing is meant to show, in terms of the handler's inputs. */
  predicate Selected(q: EventsQuery, dateOf: string -> Option<int>, row: EventRow) {
    && row.event.isActive
    && (q.title == "" || ILike(row.event.title, "%" + q.title + "%"))
    && (q.location == "" || ILike(row.event.location, "%" + q.location + "%"))
    && (IsBlank(q.eventDate) || (dateOf(q.eventDate).Some? && dateOf(row.event.eventDate) == dateOf(q.eventDate)))
    && (q.category == "" || (row.categoryName.Some? && ILike(row.categoryName.value, "%" + q.category + "%")))
  }

  /** The selected rows, in the order the table yields them. */
  function EventsKept(q: EventsQuery, dateOf: string -> Option<int>, rows: seq<EventRow>): seq<EventRow> {
    Filter(row => Selected(q, dateOf, row), rows)
  }

  /** Both the page and the count parameters give the `WHERE` clause exactly the selection. */
  lemma EventsWhereIsSelection(q: EventsQuery, dateOf: string -> Option<int>, page: JsInt, limit: JsInt, row: EventRow)
    ensures EventsWhere(EventsValues(q, page, limit), dateOf, row) <==> Selected(q, dateOf, row)
    ensures EventsWhere(EventsValues(q, page, limit)[..4], dateOf, row) <==> Selected(q, dateOf, row)
  {
    var v := EventsValues(q, page, limit);
    assert v[..4][0] == v[0] && v[..4][1] == v[1] && v[..4][2] == v[2] && v[..4][3] == v[3];
  }

  /**
   * With terms free of pattern metacharacters, the selection is: active,
   * and each given text filter a case-insensitive substring of its column.
   */
  lemma SelectedMeansSubstrings(q: EventsQuery, dateOf: string -> Option<int>, row: EventRow)
    requires NoMeta(q.title) && NoMeta(q.location) && NoMeta(q.category)
    ensures Selected(q, dateOf, row) <==>
      && row.event.isActive
      && (q.title == "" || Contains(Lower(row.event.title), Lower(q.title)))
      && (q.location == "" || Contains(Lower(row.event.location), Lower(q.location)))
      && (IsBlank(q.eventDate) || (dateOf(q.eventDate).Some? && dateOf(row.event.eventDate) == dateOf(q.eventDate)))
      && (q.category == "" || (row.categoryName.Some? && Contains(Lower(row.categoryName.value), Lower(q.category))))
  {
    ILikeSubstring(row.event.title, q.title);
    ILikeSubstring(row.event.location, q.location);
    if row.categoryName.Some? {
      ILikeSubstring(row.categoryName.value, q.category);
    }
  }

  /** The rows a `WHERE` clause over the parameters `values` keeps. */
  function WhereRows(values: seq<Param>, dateOf: string -> Option<int>, rows: seq<EventRow>): seq<EventRow>
    requires |values| >= 4
  {
    Filter(row => EventsWhere(values, dateOf, row), rows)
  }

  /** The page query and the count query keep exactly the selected rows. */
  lemma WhereRowsAreKept(q: EventsQuery, dateOf: string -> Option<int>, page: JsInt, limit: JsInt, rows: seq<EventRow>)
    ensures WhereRows(EventsValues(q, page, limit), dateOf, rows) == EventsKept(q, dateOf, rows)
    ensures WhereRows(EventsValues(q, page, limit)[..4], dateOf, rows) == EventsKept(q, dateOf, rows)
  {
    var values := EventsValues(q, page, limit);
    var countValues := values[..4];
    forall row | row in rows
      ensures EventsWhere(values, dateOf, row) == Selected(q, dateOf, row)
      ensures EventsWhere(countValues, dateOf, row) == Selected(q, dateOf, row)
    {
      EventsWhereIsSelection(q, dateOf, page, limit, row);
    }
    FilterAgrees(row => EventsWhere(values, dateOf, row), row => Selected(q, dateOf, row), rows);
    FilterAgrees(row => EventsWhere(countValues, dateOf, row), row => Selected(q, dateOf, row), rows);
  }

  /** Every row of a page of the selection is an active event. */
  lemma KeptPageIsActive(q: EventsQuery, dateOf: string -> Option<int>, rows: seq<EventRow>, offset: nat, limit: nat)
    ensures forall i :: 0 <= i < |Slice(EventsKept(q, dateOf, rows), offset, limit)| ==>
      Slice(EventsKept(q, dateOf, rows), offset, limit)[i].event.isActive
  {
    var kept := EventsKept(q, dateOf, rows);
    forall i | 0 <= i < |Slice(kept, offset, limit)|
      ensures Slice(kept, offset, limit)[i].event.isActive
    {
      assert Selected(q, dateOf, kept[offset + i]);
    }
  }

  /**
   * The event listing.  `rows` is the joined table in the order
   * `ORDER BY e.event_date ASC` yields; the result is the requested page of
   * the selected rows and the number of all selected rows, or `None` when
   * the database rejects the `LIMIT` / `OFFSET` values or cannot cast the
   * date filter to a date.
   */
  function FetchEvents(rows: seq<EventRow>, q: EventsQuery, dateOf: string -> Option<int>, page: JsInt, limit: JsInt)
    : (r: Option<EventsPage>)
    ensures r.Some? <==> PageArgsAccepted(page, limit) && DateArgAccepted(q, dateOf)
    ensures r.Some? ==>
      r.value.events == Slice(EventsKept(q, dateOf, rows), PageStart(page, limit), limit.value)
    ensures r.Some? ==> r.value.total == |EventsKept(q, dateOf, rows)|
    ensures r.Some? ==> forall i :: 0 <= i < |r.value.events| ==> r.value.events[i].event.isActive
  {
    var values := EventsValues(q, page, limit);
    WhereRowsAreKept(q, dateOf, page, limit, rows);
    // the cast of `$3` fails before any row is read
    if values[2].Text? && dateOf(values[2].s).None? then None
    else
      match Paginate(WhereRows(values, dateOf, rows), values[4], values[5])
      case None => None
      case Some(events) =>
        KeptPageIsActive(q, dateOf, rows, PageStart(page, limit), limit.value);
        Some(EventsPage(events, |WhereRows(values[..4], dateOf, rows)|))
  }

  /** `fetchEventById`: the row only for an active event whose category exists (an inner join). */
  function FetchEventById(s: Store, id: int): (r: Option<EventRow>)
    ensures r.Some? <==> id in s.events && s.events[id].isActive && s.events[id].categoryId in s.categories
    ensures r.Some? ==> r.value.event == s.events[id] && r.value.event.isActive
    ensures r.Some? ==> r.value.categoryName == Some(s.categories[s.events[id].categoryId])
  {
    if id in s.events && s.events[id].isActive && s.events[id].categoryId in s.categories
    then Some(EventRow(s.events[id], Some(s.categories[s.events[id].categoryId])))
    else None
  }

  /** The columns `updateEventsById` overwrites. */
  datatype EventUpdate = EventUpdate(
    title: string, location: string, eventDate: string, time: string, description: string,
    categoryId: int, imageUrl: string, capacity: int, availableSeats: int, price: int)

  /** The row a write returned (`RETURNING *`), if any, and the store after it. */
  datatype EventWrite = EventWrite(row: Option<Event>, store: Store)

  /**
   * `updateEventsById`: overwrites the ten listed columns and `updated_at`
   * of the event with that id, active or not; nothing else changes.
   */
  function UpdateEventsById(s: Store, id: int, u: EventUpdate, now: int): (w: EventWrite)
    ensures w.row.Some? <==> id in s.events
    ensures id !in s.events ==> w.store == s
    ensures id in s.events ==> w.store == s.(events := s.events[id := w.row.value])
    ensures id in s.events ==>
      var e := s.events[id]; var e' := w.row.value;
      && e'.title == u.title && e'.location == u.location && e'.eventDate == u.eventDate
      && e'.time == u.time && e'.description == u.description && e'.categoryId == u.categoryId
      && e'.imageUrl == u.imageUrl && e'.capacity == u.capacity && e'.availableSeats == u.availableSeats
      && e'.price == u.price && e'.updatedAt == now
      && e'.eventId == e.eventId && e'.stateId == e.stateId && e'.cityId == e.cityId
      && e'.isActive == e.isActive && e'.createdAt == e.createdAt
      && e'.createdBy == e.createdBy && e'.updatedBy == e.updatedBy
  {
    if id in s.events then
      var e := s.events[id].(title := u.title, location := u.location, eventDate := u.eventDate,
                             time := u.time, description := u.description, categoryId := u.categoryId,
                             imageUrl := u.imageUrl, capacity := u.capacity,
                             availableSeats := u.availableSeats, price := u.price, updatedAt := now);
      EventWrite(Some(e), s.(events := s.events[id := e]))
    else EventWrite(None, s)
  }

  /**
   * `deleteEventById`: a soft delete.  Clears `is_active` and stamps
   * `updated_at`; an unknown id returns no row, an already inactive event
   * still returns its row.
   */
  function DeleteEventById(s: Store, id: int, now: int): (w: EventWrite)
    ensures w.row.Some? <==> id in s.events
    ensures id !in s.events ==> w.store == s
    ensures id in s.events ==>
      && w.row.value == s.events[id].(isActive := false, updatedAt := now)
      && w.store == s.(events := s.events[id := w.row.value])
      && w.store.events.Keys == s.events.Keys
  {
    if id in s.events then
      var e := s.events[id].(isActive := false, updatedAt := now);
      EventWrite(Some(e), s.(events := s.events[id := e]))
    else EventWrite(None, s)
  }

  /**
   * `getEventByTitleAndDate`: is there any event, active or not, with that
   * title on that day?  PostgreSQL gives `$2` the type of `event_date`, so
   * the text is read through the cast `dateOf` and compared as a day.  The
   * query fails when the cast does; `HasEventWithTitleAndDate` is only asked
   * about a text the cast reads.
   */
  predicate HasEventWithTitleAndDate(s: Store, title: string, eventDate: string, dateOf: string -> Option<int>) {
    && dateOf(eventDate).Some?
    && exists id :: id in s.events && s.events[id].title == title && dateOf(s.events[id].eventDate) == dateOf(eventDate)
  }

  /** The record the creation handler hands to the store; `state_id` and `city_id` went through `parseInt`. */
  datatype EventData = EventData(
    title: string, stateId: JsInt, cityId: JsInt, location: string, eventDate: string, time: string,
    description: string, categoryId: int, imageUrl: string, capacity: int, availableSeats: int,
    price: int, createdBy: int, updatedBy: int)

  /**
   * `createEvent`: inserts a new active row under the next serial id; both
   * audit columns take `created_by` (`$13` twice).  A NaN `state_id` or
   * `city_id` is refused by the integer column, a date text the cast
   * `dateOf` cannot read by the date column, and nothing is inserted.
   */
  function InsertEvent(s: Store, d: EventData, dateOf: string -> Option<int>, now: int): (w: EventWrite)
    ensures w.row.Some? <==> d.stateId.Some? && d.cityId.Some? && dateOf(d.eventDate).Some?
    ensures w.row.None? ==> w.store == s
    ensures w.row.Some? ==>
      w.store == s.(events := s.events[s.nextEventId := w.row.value], nextEventId := s.nextEventId + 1)
    ensures w.row.Some? ==>
      var e := w.row.value;
      && e.eventId == s.nextEventId && e.isActive
      && e.title == d.title && e.stateId == d.stateId.value && e.cityId == d.cityId.value
      && e.location == d.location && e.eventDate == d.eventDate && e.time == d.time
      && e.description == d.description && e.categoryId == d.categoryId && e.imageUrl == d.imageUrl
      && e.capacity == d.capacity && e.availableSeats == d.availableSeats && e.price == d.price
      && e.createdBy == d.createdBy && e.updatedBy == d.createdBy
      && e.createdAt == now && e.updatedAt == now
  {
    if d.stateId.None? || d.cityId.None? || dateOf(d.eventDate).None? then EventWrite(None, s)
    else
      var e := Event(s.nextEventId, d.title, d.stateId.value, d.cityId.value, d.location, d.eventDate, d.time,
                     d.description, d.categoryId, d.imageUrl, d.capacity, d.availableSeats, d.price,
                     true, now, now, d.createdBy, d.createdBy);
      EventWrite(Some(e), s.(events := s.events[s.nextEventId := e], nextEventId := s.nextEventId + 1))
  }

  function ActiveIds(s: Store): set<int> {
    set id | id in s.events && s.events[id].isActive
  }

  function InactiveIds(s: Store): set<int> {
    set id | id in s.events && !s.events[id].isActive
  }

  function CountAllEvents(s: Store): nat {
    |s.events|
  }

  function CountActiveEvents(s: Store): nat {
    |ActiveIds(s)|
  }

  function CountCancelledEvents(s: Store): nat {
    |InactiveIds(s)|
  }

  /** Every event is counted as active or as cancelled, never both. */
  lemma ActivePlusCancelledIsAll(s: Store)
    ensures CountActiveEvents(s) + CountCancelledEvents(s) == CountAllEvents(s)
  {
    assert ActiveIds(s) !! InactiveIds(s);
    assert ActiveIds(s) + InactiveIds(s) == s.events.Keys;
    assert |s.events.Keys| == |s.events|;
  }

  /** A soft delete moves one active event to the cancelled count and keeps the total. */
  lemma DeleteMovesToCancelled(s: Store, id: int, now: int)
    requires id in s.events && s.events[id].isActive
    ensures var s' := DeleteEventById(s, id, now).store;
      && CountAllEvents(s') == CountAllEvents(s)
      && CountActiveEvents(s') == CountActiveEvents(s) - 1
      && CountCancelledEvents(s') == CountCancelledEvents(s) + 1
  {
    var s' := DeleteEventById(s, id, now).store;
    assert ActiveIds(s') == ActiveIds(s) - {id};
    assert InactiveIds(s') == InactiveIds(s) + {id};
    assert s'.events.Keys == s.events.Keys;
  }

  datatype CategoryRow = CategoryRow(categoryId: int, name: string, description: string)

  datatype CategoriesPage = CategoriesPage(categories: seq<CategoryRow>, total: nat)

  /** `($1::text IS NULL OR name ILIKE $1)` with `$1` = `name%` or `NULL`. */
  predicate CategoryWhere(p: Param, row: CategoryRow) {
    NullOrILike(p, Some(row.name))
  }

  /** Which categories the listing is meant to show: names starting with `name`, ignoring case. */
  predicate CategorySelected(name: string, row: CategoryRow) {
    name == "" || ILike(row.name, name + "%")
  }

  /** The selected categories, in the order the table yields them. */
  function CategoriesKept(name: string, rows: seq<CategoryRow>): seq<CategoryRow> {
    Filter(row => CategorySelected(name, row), rows)
  }

  /**
   * `fetchCategories`.  `rows` is the table in `ORDER BY name ASC` order;
   * the filter is a case-insensitive prefix match, skipped for an empty
   * name, and the total counts every matching category.
   */
  function FetchCategories(rows: seq<CategoryRow>, name: string, page: JsInt, limit: JsInt): (r: Option<CategoriesPage>)
    ensures r.Some? <==> PageArgsAccepted(page, limit)
    ensures r.Some? ==>
      r.value.categories == Slice(CategoriesKept(name, rows), PageStart(page, limit), limit.value)
    ensures r.Some? ==> r.value.total == |CategoriesKept(name, rows)|
  {
    var pattern := if name != "" then Text(name + "%") else Null;
    var values := [pattern, NumParam(limit), NumParam(PageOffset(page, limit))];
    FilterAgrees(row => CategoryWhere(pattern, row), row => CategorySelected(name, row), rows);
    match Paginate(Filter(row => CategoryWhere(values[0], row), rows), values[1], values[2])
    case None => None
    case Some(categories) => Some(CategoriesPage(categories, |Filter(row => CategoryWhere(pattern, row), rows)|))
  }

  /** For a name free of metacharacters, the category filter is a case-insensitive prefix test. */
  lemma CategoryFilterIsPrefix(name: string, row: CategoryRow)
    requires NoMeta(name)
    ensures CategorySelected(name, row) <==> IsPrefix(Lower(name), Lower(row.name))
  {
    ILikePrefix(row.name, name);
  }
}

=== FILE: event_service.dfy ===
/**
 * Event creation below the handler: the duplicate check on (title, date)
 * and the projection of the inserted row onto the reply object.
 */
module EventService {
  import opened Common
  import opened Store
  import opened EventModel

  /** The fields of a created event the reply carries. */
  datatype EventDto = EventDto(
    eventId: int, title: string, location: string, eventDate: string, time: string,
    description: string, categoryId: int, imageUrl: string, capacity: int, availableSeats: int,
    price: int, createdBy: int, createdAt: int, updatedAt: int)

  function ToDto(e: Event): (dto: EventDto) {
    EventDto(e.eventId, e.title, e.location, e.eventDate, e.time, e.description, e.categoryId,
             e.imageUrl, e.capacity, e.availableSeats, e.price, e.createdBy, e.createdAt, e.updatedAt)
  }

  /** The projection ignores `state_id`, `city_id`, `updated_by` and `is_active`. */
  lemma DtoOmitsUnlistedFields(e: Event, stateId: int, cityId: int, updatedBy: int, isActive: bool)
    ensures ToDto(e.(stateId := stateId, cityId := cityId, updatedBy := updatedBy, isActive := isActive)) == ToDto(e)
  {
  }

  /** Two rows with the same reply agree on every listed field. */
  lemma DtoKeepsListedFields(e1: Event, e2: Event)
    requires ToDto(e1) == ToDto(e2)
    ensures e1 == e2.(stateId := e1.stateId, cityId := e1.cityId, updatedBy := e1.updatedBy, isActive := e1.isActive)
  {
  }

  /** A thrown error (a `{status, message}` object, or a database error, which has no status) or a returned value. */
  datatype ServiceResult = Thrown(status: Status) | Returned(dto: EventDto)

  datatype ServiceStep = ServiceStep(result: ServiceResult, store: Store)

  /**
   * `createEventService`: a database error (500) when the duplicate check
   * cannot read the date; a 409 and no insert when any event, active or
   * soft-deleted, already has this title on that day; otherwise the insert,
   * which fails (500) for a NaN `state_id` or `city_id`, and the projection
   * of the inserted row.
   */
  function CreateEventService(s: Store, d: EventData, dateOf: string -> Option<int>, now: int): (r: ServiceStep)
    ensures r.result.Thrown? <==>
      || dateOf(d.eventDate).None? || HasEventWithTitleAndDate(s, d.title, d.eventDate, dateOf)
      || d.stateId.None? || d.cityId.None?
    ensures r.result.Thrown? ==> r.store == s
    ensures r.result.Thrown? ==>
      (r.result.status == Conflict <==> HasEventWithTitleAndDate(s, d.title, d.eventDate, dateOf))
    ensures r.result.Thrown? ==> r.result.status in {Conflict, ServerError}
    ensures r.result.Returned? ==>
      && r.store.events.Keys == s.events.Keys + {s.nextEventId}
      && r.store.bookings == s.bookings && r.store.categories == s.categories
      && r.store.nextEventId == s.nextEventId + 1 && r.store.nextBookingId == s.nextBookingId
      && d.stateId.Some? && d.cityId.Some?
      && r.store.events[s.nextEventId] ==
           Event(s.nextEventId, d.title, d.stateId.value, d.cityId.value, d.location, d.eventDate, d.time,
                 d.description, d.categoryId, d.imageUrl, d.capacity, d.availableSeats, d.price,
                 true, now, now, d.createdBy, d.createdBy)
      && r.result.dto == ToDto(r.store.events[s.nextEventId])
      && r.result.dto.eventId == s.nextEventId
      && r.result.dto.title == d.title && r.result.dto.eventDate == d.eventDate
      && r.result.dto.capacity == d.capacity && r.result.dto.availableSeats == d.availableSeats
      && r.result.dto.price == d.price && r.result.dto.createdBy == d.createdBy
      && (forall id :: id in s.events && id != s.nextEventId ==> r.store.events[id] == s.events[id])
  {
    // the comparison with `event_date` fails before any row is read
    if dateOf(d.eventDate).None? then ServiceStep(Thrown(ServerError), s)
    else if HasEventWithTitleAndDate(s, d.title, d.eventDate, dateOf) then ServiceStep(Thrown(Conflict), s)
    else
      var w := InsertEvent(s, d, dateOf, now);
      match w.row
      case None => ServiceStep(Thrown(ServerError), s)
      case Some(e) => ServiceStep(Returned(ToDto(e)), w.store)
  }

  /**
   * A soft-deleted event still blocks a new one with the same title and
   * date, unless the date cannot be read at all.
   */
  lemma SoftDeletedEventStillConflicts(s: Store, id: int, d: EventData, dateOf: string -> Option<int>, now: int, later: int)
    requires id in s.events && s.events[id].title == d.title && s.events[id].eventDate == d.eventDate
    ensures CreateEventService(DeleteEventById(s, id, now).store, d, dateOf, later).result ==
      if dateOf(d.eventDate).Some? then Thrown(Conflict) else Thrown(ServerError)
  {
    var s' := DeleteEventById(s, id, now).store;
    assert s'.events[id].title == d.title && s'.events[id].eventDate == d.eventDate;
  }
}

=== FILE: ledger.dfy ===
/**
 * The seat ledger: every event's `available_seats` plus the tickets of all
 * its bookings, whatever their status, equals its capacity.  Booking
 * consumes seats, cancellation as written does not give them back, and
 * creating or soft-deleting events keeps the books balanced.  A negative
 * ticket count slips through the booking checks and pushes the seats left
 * above the capacity; the checked variant here rejects it and keeps
 * `0 <= available_seats <= capacity` over any run of requests.
 */
module Ledger {
  import opened Common
  import opened Store
  import opened RoleVerify
  import opened EventModel
  import opened EventService
  import opened BookingController
  import opened EventController

  /** The tickets one booking holds on an event. */
  function Held(b: Booking, eventId: int): int {
    if b.eventId == eventId then b.numTickets else 0
  }

  lemma HasKey(m: map<int, Booking>)
    requires |m| > 0
    ensures exists k :: k in m
  {
    if forall k :: k !in m {
      assert false;
    }
  }

  /** Some booking id of a non-empty map: the one the sum visits first. */
  ghost function Pick(m: map<int, Booking>): (k: int)
    requires |m| > 0
    ensures k in m
  {
    HasKey(m);
    var k :| k in m; k
  }

  lemma RemoveShrinks(m: map<int, Booking>, k: int)
    requires k in m
    ensures |m - {k}| == |m| - 1
  {
    assert (m - {k}).Keys == m.Keys - {k};
  }

  /** The tickets all bookings in `m` hold on an event. */
  ghost function Tickets(m: map<int, Booking>, eventId: int): int
    decreases |m|
  {
    if |m| == 0 then 0
    else
      var k := Pick(m);
      RemoveShrinks(m, k);
      Held(m[k], eventId) + Tickets(m - {k}, eventId)
  }

  /** The sum does not depend on the order the bookings are visited in. */
  lemma {:induction false} TicketsRemove(m: map<int, Booking>, k: int, eventId: int)
    requires k in m
    ensures Tickets(m, eventId) == Held(m[k], eventId) + Tickets(m - {k}, eventId)
    decreases |m|
  {
    var j := Pick(m);
    if j != k {
      RemoveShrinks(m, j);
      RemoveShrinks(m, k);
      TicketsRemove(m - {j}, k, eventId);
      TicketsRemove(m - {k}, j, eventId);
      assert m - {j} - {k} == m - {k} - {j};
    }
  }

  /** A new booking adds its own tickets and nothing else. */
  lemma TicketsInsert(m: map<int, Booking>, k: int, b: Booking, eventId: int)
    requires k !in m
    ensures Tickets(m[k := b], eventId) == Tickets(m, eventId) + Held(b, eventId)
  {
    TicketsRemove(m[k := b], k, eventId);
    assert m[k := b] - {k} == m;
  }

  /** Rewriting a booking without touching its event or ticket count keeps every sum. */
  lemma TicketsReplace(m: map<int, Booking>, k: int, b: Booking, eventId: int)
    requires k in m && b.eventId == m[k].eventId && b.numTickets == m[k].numTickets
    ensures Tickets(m[k := b], eventId) == Tickets(m, eventId)
  {
    TicketsRemove(m[k := b], k, eventId);
    TicketsRemove(m, k, eventId);
    assert m[k := b] - {k} == m - {k};
  }

  /** No booking holds tickets on an event none of them refers to. */
  lemma {:induction false} TicketsOfUnreferenced(m: map<int, Booking>, eventId: int)
    requires forall k :: k in m ==> m[k].eventId != eventId
    ensures Tickets(m, eventId) == 0
    decreases |m|
  {
    if |m| > 0 {
      var k := Pick(m);
      TicketsRemove(m, k, eventId);
      RemoveShrinks(m, k);
      TicketsOfUnreferenced(m - {k}, eventId);
    }
  }

  /** With only positive bookings every sum is non-negative. */
  lemma {:induction false} TicketsNonNegative(m: map<int, Booking>, eventId: int)
    requires forall k :: k in m ==> m[k].numTickets > 0
    ensures Tickets(m, eventId) >= 0
    decreases |m|
  {
    if |m| > 0 {
      var k := Pick(m);
      TicketsRemove(m, k, eventId);
      RemoveShrinks(m, k);
      TicketsNonNegative(m - {k}, eventId);
    }
  }

  /** Seats left plus seats held by bookings of any status is the capacity, for every event. */
  ghost predicate Balanced(s: Store) {
    && s.WellFormed()
    && forall id :: id in s.events ==> s.events[id].availableSeats + Tickets(s.bookings, id) == s.events[id].capacity
  }

  /** What the ledger is meant to guarantee: bookings hold tickets and no event is oversold or overfilled. */
  ghost predicate Sound(s: Store) {
    && Balanced(s)
    && (forall k :: k in s.bookings ==> s.bookings[k].numTickets > 0)
    && (forall id :: id in s.events ==> 0 <= s.events[id].availableSeats <= s.events[id].capacity)
  }

  /** A balanced store with positive bookings never shows more seats left than the capacity. */
  lemma SeatsNeverExceedCapacity(s: Store, id: int)
    requires Balanced(s) && id in s.events
    requires forall k :: k in s.bookings ==> s.bookings[k].numTickets > 0
    ensures s.events[id].availableSeats <= s.events[id].capacity
  {
    TicketsNonNegative(s.bookings, id);
  }

  /** `createBooking` as written keeps the books balanced: the seats it takes are the tickets it records. */
  lemma CreateBookingBalances(s: Store, req: BookingRequest, now: int)
    requires Balanced(s)
    ensures Balanced(CreateBooking(s, req, now).store)
  {
    var r := CreateBooking(s, req, now);
    if r.reply.status == Created {
      var s' := r.store;
      var b := r.reply.body.value;
      assert s.nextBookingId !in s.bookings;
      forall id | id in s'.events
        ensures s'.events[id].availableSeats + Tickets(s'.bookings, id) == s'.events[id].capacity
      {
        TicketsInsert(s.bookings, s.nextBookingId, b, id);
      }
    }
  }

  /** Cancelling, as written, keeps the cancelled tickets counted against the event. */
  lemma CancelBookingBalances(s: Store, caller: Caller, bookingId: int, now: int)
    requires Balanced(s)
    ensures Balanced(CancelBooking(s, caller, bookingId, now).store)
    ensures CancelBooking(s, caller, bookingId, now).store.events == s.events
  {
    var r := CancelBooking(s, caller, bookingId, now);
    if r.reply.status == Ok {
      var b := s.bookings[bookingId].(status := "cancelled", updatedAt := now);
      forall id | id in s.events
        ensures Tickets(r.store.bookings, id) == Tickets(s.bookings, id)
      {
        TicketsReplace(s.bookings, bookingId, b, id);
      }
    }
  }

  /** A new event starts with every seat available and no booking on it. */
  lemma CreateEventBalances(s: Store, caller: Caller, userId: int, body: CreateBody,
                            parsesAsDate: string -> bool, dateOf: string -> Option<int>, now: int)
    requires Balanced(s)
    ensures Balanced(CreateEvent(s, caller, userId, body, parsesAsDate, dateOf, now).store)
  {
    var r := CreateEvent(s, caller, userId, body, parsesAsDate, dateOf, now);
    if r.reply.status == Created {
      var s', newId := r.store, s.nextEventId;
      assert newId !in s.events;
      assert s'.bookings == s.bookings && s'.nextBookingId == s.nextBookingId && s'.nextEventId == newId + 1;
      TicketsOfUnreferenced(s.bookings, newId);
      forall id | id in s'.events
        ensures s'.events[id].eventId == id && id < s'.nextEventId
        ensures s'.events[id].availableSeats + Tickets(s'.bookings, id) == s'.events[id].capacity
      {
        if id != newId {
          assert id in s.events && s'.events[id] == s.events[id];
        }
      }
      assert s'.WellFormed();
    }
  }

  /** A soft delete touches neither seats nor bookings. */
  lemma DeleteEventBalances(s: Store, id: PathId, now: int)
    requires Balanced(s)
    ensures Balanced(DeleteEvent(s, id, now).store)
  {
  }

  /**
   * The defect: a negative `num_tickets` is truthy and never more than the
   * seats left, so it is booked, and the seat count rises past the capacity.
   */
  lemma NegativeTicketsOverfill()
    ensures var e := Event(1, "Gig", 1, 1, "Hall", "2025-01-01", "20:00", "Live", 1, "img", 10, 10, 100,
                           true, 0, 0, 7, 7);
      var s := Store(map[1 := e], map[], map[1 := "Music"], 2, 1);
      var r := CreateBooking(s, BookingRequest(3, 1, -5, ""), 5);
      && Sound(s)
      && r.reply.status == Created
      && r.store.events[1].availableSeats == 15 > r.store.events[1].capacity
      && !Sound(r.store)
  {
    var e := Event(1, "Gig", 1, 1, "Hall", "2025-01-01", "20:00", "Live", 1, "img", 10, 10, 100,
                   true, 0, 0, 7, 7);
    var s := Store(map[1 := e], map[], map[1 := "Music"], 2, 1);
    assert Tickets(s.bookings, 1) == 0;
    var r := CreateBooking(s, BookingRequest(3, 1, -5, ""), 5);
    assert r.store.events[1].availableSeats == 15;
  }

  /**
   * `createBooking` with the evidently intended quantity check: a ticket
   * count below one is a 400 like a missing one; anything else is the
   * handler as written.
   */
  function CreateBookingChecked(s: Store, req: BookingRequest, now: int): (r: Step<Booking>)
    ensures req.numTickets < 1 ==> r.reply.status == BadRequest && r.store == s
    ensures req.numTickets >= 1 ==> r == CreateBooking(s, req, now)
    ensures r.reply.status == Created ==> r.reply.body.value.numTickets >= 1
  {
    if req.numTickets < 1 then Step(Reply(BadRequest, None), s)
    else CreateBooking(s, req, now)
  }

  /** The checked booking keeps the ledger sound. */
  lemma CreateBookingCheckedSound(s: Store, req: BookingRequest, now: int)
    requires Sound(s)
    ensures Sound(CreateBookingChecked(s, req, now).store)
  {
    var r := CreateBookingChecked(s, req, now);
    if r.reply.status == Created {
      CreateBookingBalances(s, req, now);
      var s' := r.store;
      forall id | id in s'.events
        ensures 0 <= s'.events[id].availableSeats <= s'.events[id].capacity
      {
        forall k | k in s'.bookings ensures s'.bookings[k].numTickets > 0 {
        }
        SeatsNeverExceedCapacity(s', id);
      }
    }
  }

  lemma CancelBookingSound(s: Store, caller: Caller, bookingId: int, now: int)
    requires Sound(s)
    ensures Sound(CancelBooking(s, caller, bookingId, now).store)
  {
    CancelBookingBalances(s, caller, bookingId, now);
  }

  lemma CreateEventSound(s: Store, caller: Caller, userId: int, body: CreateBody,
                         parsesAsDate: string -> bool, dateOf: string -> Option<int>, now: int)
    requires Sound(s)
    ensures Sound(CreateEvent(s, caller, userId, body, parsesAsDate, dateOf, now).store)
  {
    CreateEventBalances(s, caller, userId, body, parsesAsDate, dateOf, now);
  }

  lemma DeleteEventSound(s: Store, id: PathId, now: int)
    requires Sound(s)
    ensures Sound(DeleteEvent(s, id, now).store)
  {
    DeleteEventBalances(s, id, now);
  }

  /** The requests that write seats or bookings, with the checked booking in place of the original. */
  datatype Command =
    | Book(req: BookingRequest)
    | Cancel(caller: Caller, bookingId: int)
    | NewEvent(caller: Caller, userId: int, body: CreateBody)
    | Remove(id: PathId)

  function Apply(s: Store, c: Command, parsesAsDate: string -> bool, dateOf: string -> Option<int>, now: int)
    : Store
  {
    match c
    case Book(req) => CreateBookingChecked(s, req, now).store
    case Cancel(caller, id) => CancelBooking(s, caller, id, now).store
    case NewEvent(caller, userId, body) => CreateEvent(s, caller, userId, body, parsesAsDate, dateOf, now).store
    case Remove(id) => DeleteEvent(s, id, now).store
  }

  /** A run of requests, one after another, the `i`-th at time `now + i`. */
  function RunAll(s: Store, cs: seq<Command>, parsesAsDate: string -> bool, dateOf: string -> Option<int>, now: int)
    : Store
    decreases |cs|
  {
    if |cs| == 0 then s
    else RunAll(Apply(s, cs[0], parsesAsDate, dateOf, now), cs[1..], parsesAsDate, dateOf, now + 1)
  }

  /** Each request keeps the ledger sound. */
  lemma ApplySound(s: Store, c: Command, parsesAsDate: string -> bool, dateOf: string -> Option<int>, now: int)
    requires Sound(s)
    ensures Sound(Apply(s, c, parsesAsDate, dateOf, now))
  {
    match c
    case Book(req) => CreateBookingCheckedSound(s, req, now);
    case Cancel(caller, id) => CancelBookingSound(s, caller, id, now);
    case NewEvent(caller, userId, body) => CreateEventSound(s, caller, userId, body, parsesAsDate, dateOf, now);
    case Remove(id) => DeleteEventSound(s, id, now);
  }

  /** No run of bookings, cancellations, event creations and deletions oversells or overfills an event. */
  lemma {:induction false} RunAllSound(s: Store, cs: seq<Command>,
                                       parsesAsDate: string -> bool, dateOf: string -> Option<int>, now: int)
    requires Sound(s)
    ensures Sound(RunAll(s, cs, parsesAsDate, dateOf, now))
    decreases |cs|
  {
    if |cs| > 0 {
      ApplySound(s, cs[0], parsesAsDate, dateOf, now);
      RunAllSound(Apply(s, cs[0], parsesAsDate, dateOf, now), cs[1..], parsesAsDate, dateOf, now + 1);
    }
  }

  /** `updateEventById` stores the seat numbers it is given, so it can unbalance the ledger. */
  lemma UpdateCanUnbalance(s: Store, id: int, b: UpdateBody, now: int)
    requires Balanced(s) && id in s.events && !UpdateRejected(b)
    requires b.availableSeats.value + Tickets(s.bookings, id) != b.capacity.value
    ensures !Balanced(UpdateEventById(s, Key(id), b, now).store)
  {
    var s' := UpdateEventById(s, Key(id), b, now).store;
    assert s'.bookings == s.bookings;
    assert id in s'.events;
  }
}

=== FILE: role_verify.dfy ===
/**
 * The two role gates placed in front of handlers: each lets the request
 * through to the next handler for exactly one role and answers 403
 * otherwise.
 */
module RoleVerify {
  import opened Common

  /** The authenticated caller as the token check leaves it on the request. */
  datatype Caller = Caller(userId: int, role: string)

  /** A gate either hands the request on (`next()`) or answers it itself. */
  datatype Gate = Next | Denied(status: Status)

  /** `isUser`. */
  function IsUser(c: Caller): (g: Gate)
    ensures g.Next? <==> c.role == "user"
    ensures g.Denied? ==> g.status == Forbidden
  {
    if c.role != "user" then Denied(Forbidden) else Next
  }

  /** `isAdmin`. */
  function IsAdmin(c: Caller): (g: Gate)
    ensures g.Next? <==> c.role == "admin"
    ensures g.Denied? ==> g.status == Forbidden
  {
    if c.role != "admin" then Denied(Forbidden) else Next
  }

  /** No caller gets through both gates. */
  lemma NoRolePassesBoth(c: Caller)
    ensures !(IsUser(c).Next? && IsAdmin(c).Next?)
  {
  }
}

=== FILE: routes.dfy ===
/**
 * The routes that put a role gate in front of a handler.  A gate that
 * refuses answers 403 and the handler never runs; the event routes other
 * than creation carry no gate at all.
 */
module Routes {
  import opened Common
  import opened Store
  import opened RoleVerify
  import opened BookingModel
  import opened BookingController
  import opened EventController

  /** A gate in front of a handler that changes the store. */
  function Guarded<T>(g: Gate, s: Store, handler: Step<T>): (r: Step<T>)
    ensures g.Denied? ==> r.reply.status == g.status && r.reply.body.None? && r.store == s
    ensures g.Next? ==> r == handler
  {
    match g
    case Denied(status) => Step(Reply(status, None), s)
    case Next => handler
  }

  /** A gate in front of a handler that only reads. */
  function GuardedRead<T>(g: Gate, handler: Reply<T>): (r: Reply<T>)
    ensures g.Denied? ==> r.status == g.status && r.body.None?
    ensures g.Next? ==> r == handler
  {
    match g
    case Denied(status) => Reply(status, None)
    case Next => handler
  }

  /** `POST /PostBooking`: users only. */
  function PostBooking(s: Store, caller: Caller, req: BookingRequest, now: int): (r: Step<Booking>)
    ensures caller.role != "user" ==> r.reply.status == Forbidden && r.store == s
    ensures caller.role == "user" ==> r == CreateBooking(s, req, now)
  {
    Guarded(IsUser(caller), s, CreateBooking(s, req, now))
  }

  /** `GET /Allbookings`: admins only. */
  function AllBookings(rows: seq<BookingRow>, caller: Caller, a: AllBookingsArgs): (r: Reply<AllBookingsBody>)
    ensures caller.role != "admin" ==> r.status == Forbidden && r.body.None?
    ensures caller.role == "admin" ==> r == GetAllBookings(rows, caller, a)
  {
    GuardedRead(IsAdmin(caller), GetAllBookings(rows, caller, a))
  }

  /** `GET /IndBookings/:userId`: users only. */
  function IndBookings(rows: seq<BookingRow>, caller: Caller, userIdParam: JsInt, a: UserBookingsArgs)
    : (r: Reply<UserBookingsBody>)
    ensures caller.role != "user" ==> r.status == Forbidden && r.body.None?
    ensures caller.role == "user" ==> r == GetUserBookings(rows, caller, userIdParam, a)
  {
    GuardedRead(IsUser(caller), GetUserBookings(rows, caller, userIdParam, a))
  }

  /** `DELETE /Delbookings/:id`: users only. */
  function DelBookings(s: Store, caller: Caller, bookingId: int, now: int): (r: Step<CancelledBooking>)
    ensures caller.role != "user" ==> r.reply.status == Forbidden && r.store == s
    ensures caller.role == "user" ==> r == CancelBooking(s, caller, bookingId, now)
  {
    Guarded(IsUser(caller), s, CancelBooking(s, caller, bookingId, now))
  }

  /** `POST /createEvent`: admins only. */
  function PostCreateEvent(s: Store, caller: Caller, userId: int, b: CreateBody,
                           parsesAsDate: string -> bool, dateOf: string -> Option<int>, now: int)
    : (r: Step<EventService.EventDto>)
    ensures caller.role != "admin" ==> r.reply.status == Forbidden && r.store == s
    ensures caller.role == "admin" ==> r == CreateEvent(s, caller, userId, b, parsesAsDate, dateOf, now)
  {
    Guarded(IsAdmin(caller), s, CreateEvent(s, caller, userId, b, parsesAsDate, dateOf, now))
  }

  /**
   * Behind the users-only gate the admin override of `cancelBooking` is
   * unreachable: a cancellation succeeds only for the booking's own user.
   */
  lemma CancelOnlyByOwner(s: Store, caller: Caller, bookingId: int, now: int)
    requires DelBookings(s, caller, bookingId, now).reply.status == Ok
    ensures caller.role == "user"
    ensures bookingId in s.bookings && s.bookings[bookingId].userId == caller.userId
  {
  }

  /** An admin cannot cancel anyone's booking, their own included. */
  lemma AdminCannotCancel(s: Store, caller: Caller, bookingId: int, now: int)
    requires caller.role == "admin"
    ensures DelBookings(s, caller, bookingId, now).reply.status == Forbidden
    ensures DelBookings(s, caller, bookingId, now).store == s
  {
  }

  /** Nobody reaches the user listing as an admin, even for their own id. */
  lemma AdminCannotListOwnBookings(rows: seq<BookingRow>, caller: Caller, a: UserBookingsArgs)
    requires caller.role == "admin"
    ensures IndBookings(rows, caller, Some(caller.userId), a).status == Forbidden
  {
  }

  /** The handlers' own admin checks repeat the gate's: the gated routes answer as the bare handlers do. */
  lemma AdminChecksAreRedundant(s: Store, rows: seq<BookingRow>, caller: Caller, a: AllBookingsArgs,
                                userId: int, b: CreateBody, parsesAsDate: string -> bool, dateOf: string -> Option<int>, now: int)
    ensures AllBookings(rows, caller, a) == GetAllBookings(rows, caller, a)
    ensures PostCreateEvent(s, caller, userId, b, parsesAsDate, dateOf, now) ==
            CreateEvent(s, caller, userId, b, parsesAsDate, dateOf, now)
  {
  }

  /**
   * The booking's `user_id` comes from the request body, not from the
   * token: a user can book in another user's name.
   */
  lemma BookingInAnotherUsersName(s: Store, caller: Caller, req: BookingRequest, now: int)
    requires caller.role == "user" && req.userId != caller.userId
    requires CreateBooking(s, req, now).reply.status == Created
    ensures PostBooking(s, caller, req, now).reply.status == Created
    ensures PostBooking(s, caller, req, now).reply.body.value.userId != caller.userId
  {
  }
}

=== FILE: sql_like.dfy ===
/**
 * The SQL pattern match the list queries delegate to the database:
 * `text LIKE pattern`, where `%` matches any run of characters and `_` any
 * single character, and its case-insensitive forms (`ILIKE`,
 * `LOWER(x) LIKE LOWER(p)`).  The lemmas say what the `%term%` and `term%`
 * patterns built by the query code mean: substring and prefix tests, as
 * long as the user's term carries no pattern metacharacter of its own.
 */
module SqlLike {
  import opened Common

  /** `%`, `_` and PostgreSQL's default escape character `\`. */
  predicate IsMeta(c: char) {
    c == '%' || c == '_' || c == '\\'
  }

  predicate NoMeta(s: string) {
    forall i :: 0 <= i < |s| ==> !IsMeta(s[i])
  }

  /** `t LIKE p` for a pattern without escapes. */
  predicate Like(t: string, p: string)
    decreases |p| + |t|
  {
    if |p| == 0 then |t| == 0
    else if p[0] == '%' then Like(t, p[1..]) || (|t| > 0 && Like(t[1..], p))
    else |t| > 0 && (p[0] == '_' || p[0] == t[0]) && Like(t[1..], p[1..])
  }

  /** `t ILIKE p`, and equally `LOWER(t) LIKE LOWER(p)`. */
  predicate ILike(t: string, p: string) {
    Like(Lower(t), Lower(p))
  }

  /** Reference definitions the patterns are compared against. */
  predicate IsPrefix(s: string, t: string) {
    |s| <= |t| && t[..|s|] == s
  }

  /** `s` occurs in `t` starting at position `i`. */
  predicate OccursAt(t: string, s: string, i: int) {
    0 <= i && i + |s| <= |t| && t[i .. i + |s|] == s
  }

  ghost predicate Contains(t: string, s: string) {
    exists i :: OccursAt(t, s, i)
  }

  /** A lone `%` matches everything. */
  lemma {:induction false} PercentMatchesAll(t: string)
    ensures Like(t, "%")
    decreases |t|
  {
    assert "%"[1..] == "";
    if |t| > 0 {
      PercentMatchesAll(t[1..]);
    }
  }

  /** A literal head of the pattern must be a literal head of the text. */
  lemma {:induction false} LiteralHead(t: string, s: string, q: string)
    requires NoMeta(s)
    ensures Like(t, s + q) <==> IsPrefix(s, t) && Like(t[|s|..], q)
    decreases |s|
  {
    if |s| == 0 {
      assert s + q == q;
      assert t[0..] == t;
    } else {
      assert !IsMeta(s[0]);
      assert (s + q)[0] == s[0];
      assert (s + q)[1..] == s[1..] + q;
      if |t| > 0 {
        assert NoMeta(s[1..]) by {
          forall i | 0 <= i < |s[1..]| ensures !IsMeta(s[1..][i]) {
            assert s[1..][i] == s[i + 1];
          }
        }
        LiteralHead(t[1..], s[1..], q);
        if |s| <= |t| {
          assert t[1..][|s| - 1..] == t[|s|..];
          assert t[..|s|] == [t[0]] + t[1..][..|s| - 1];
          assert s == [s[0]] + s[1..];
        }
      }
    }
  }

  /** `text LIKE 'term%'` is a prefix test. */
  lemma PrefixPattern(t: string, s: string)
    requires NoMeta(s)
    ensures Like(t, s + "%") <==> IsPrefix(s, t)
  {
    LiteralHead(t, s, "%");
    if IsPrefix(s, t) {
      PercentMatchesAll(t[|s|..]);
    }
  }

  /** Unfolding `Contains` one character at a time. */
  lemma ContainsStep(t: string, s: string)
    ensures Contains(t, s) <==> IsPrefix(s, t) || (|t| > 0 && Contains(t[1..], s))
  {
    if Contains(t, s) {
      var i :| OccursAt(t, s, i);
      if i > 0 {
        assert t[1..][i - 1 .. i - 1 + |s|] == t[i .. i + |s|];
        assert OccursAt(t[1..], s, i - 1);
      } else {
        assert IsPrefix(s, t);
      }
    }
    if IsPrefix(s, t) {
      assert OccursAt(t, s, 0);
    }
    if |t| > 0 && Contains(t[1..], s) {
      var j :| OccursAt(t[1..], s, j);
      assert t[1..][j .. j + |s|] == t[j + 1 .. j + 1 + |s|];
      assert OccursAt(t, s, j + 1);
    }
  }

  /** `text LIKE '%term%'` is a substring test. */
  lemma {:induction false} SubstringPattern(t: string, s: string)
    requires NoMeta(s)
    ensures Like(t, "%" + s + "%") <==> Contains(t, s)
    decreases |t|
  {
    var p := "%" + s + "%";
    assert p[0] == '%';
    assert p[1..] == s + "%";
    PrefixPattern(t, s);
    ContainsStep(t, s);
    if |t| > 0 {
      SubstringPattern(t[1..], s);
    }
  }

  lemma LowerKeepsNoMeta(s: string)
    ensures NoMeta(Lower(s)) <==> NoMeta(s)
  {
    if NoMeta(s) {
      forall i | 0 <= i < |s| ensures !IsMeta(Lower(s)[i]) {
        assert !IsMeta(s[i]);
      }
    }
    if NoMeta(Lower(s)) {
      forall i | 0 <= i < |s| ensures !IsMeta(s[i]) {
        assert !IsMeta(Lower(s)[i]);
      }
    }
  }

  lemma LowerWrap(s: string)
    ensures Lower("%" + s + "%") == "%" + Lower(s) + "%"
    ensures Lower(s + "%") == Lower(s) + "%"
  {
  }

  /** A case-insensitive `%term%` match is a substring test on the lower-cased strings. */
  lemma ILikeSubstring(t: string, s: string)
    requires NoMeta(s)
    ensures ILike(t, "%" + s + "%") <==> Contains(Lower(t), Lower(s))
  {
    LowerWrap(s);
    LowerKeepsNoMeta(s);
    SubstringPattern(Lower(t), Lower(s));
  }

  /** A case-insensitive `term%` match is a prefix test on the lower-cased strings. */
  lemma ILikePrefix(t: string, s: string)
    requires NoMeta(s)
    ensures ILike(t, s + "%") <==> IsPrefix(Lower(s), Lower(t))
  {
    LowerWrap(s);
    LowerKeepsNoMeta(s);
    PrefixPattern(Lower(t), Lower(s));
  }
}

=== FILE: store.dfy ===
/**
 * The persisted state the handlers read and write: the `events`,
 * `bookings` and `categories` tables as maps from their keys, and the two
 * serial counters the database uses to number new rows.  Money is in
 * integer cents; timestamps are opaque integers supplied by the caller.
 */
module Store {
  import opened Common

  datatype Event = Event(
    eventId: int,
    title: string,
    stateId: int,
    cityId: int,
    location: string,
    eventDate: string,
    time: string,
    description: string,
    categoryId: int,
    imageUrl: string,
    capacity: int,
    availableSeats: int,
    price: int,
    isActive: bool,
    createdAt: int,
    updatedAt: int,
    createdBy: int,
    updatedBy: int)

  datatype Booking = Booking(
    bookingId: int,
    userId: int,
    eventId: int,
    numTickets: int,
    totalAmount: int,
    status: string,
    createdAt: int,
    updatedAt: int,
    createdBy: int,
    updatedBy: int)

  datatype Store = Store(
    events: map<int, Event>,
    bookings: map<int, Booking>,
    categories: map<int, string>,
    nextEventId: int,
    nextBookingId: int)
  {
    /**
     * What the database's keys and foreign keys guarantee: each row is
     * stored under its own id, the serial counters are past every used id,
     * and every booking refers to an event that exists.
     */
    ghost predicate WellFormed() {
      && (forall id :: id in events ==> events[id].eventId == id && id < nextEventId)
      && (forall id :: id in bookings ==> bookings[id].bookingId == id && id < nextBookingId)
      && (forall id :: id in bookings ==> bookings[id].eventId in events)
    }
  }

  /** A handler's reply together with the store it leaves behind. */
  datatype Step<+T> = Step(reply: Reply<T>, store: Store)
}
